=== FILE: README.md ===
# Nuanyangyang conversational core, modelled in Dafny

Nuanyangyang is a multilingual companion chatbot for elderly users. This project
models the core of one chat turn:

- **Language routing.** A detector's language code becomes one of the application's
  languages ("zh", "nl", "en"). An application language becomes the locale tag that
  speech interfaces use.
- **Short-term memory.** Redis keeps a per-user window of the last ten messages. Every
  write restarts its one-hour expiry.
- **Long-term memory.** Qdrant keeps one collection per language. `add_conversation`
  indexes a turn as its combined text; the chat turn does not call it. Search is per
  user, by similarity, with a limit.
- **System prompts.** There is one prompt template per language, filled in by Python's
  `str.format`.
- **LLM dispatch.** "zh" goes to DeepSeek. Every other language goes to gpt-4o-mini,
  which exists only when an OpenAI key is configured. The message list is ordered:
  system prompt, translated history, then the user message.
- **The chat turn.** It builds the user description, retrieves context, augments the
  user message, reads the history, formats the system prompt and calls the model. It
  then appends the raw message and the reply to short-term memory.
- **Relational CRUD.** Users, conversations and health records.

How the model is built:

- Every store is a value. Redis is a map from key to (message list, expiry instant).
  Qdrant is a map from collection name to (dimension, points in order). The relational
  database is three tables of rows in insertion order.
- A turn maps a world to a reply and a new world.
- Everything the code cannot see is a parameter:
  - the language detector, the embedder, the similarity score and the chat backends
    are oracle functions;
  - each Redis or Qdrant call takes a flag that says whether it raised;
  - the clock and fresh identifiers are passed in as plain values.

Modules, one per source file, plus shared helpers:

- `Wrappers`: `Option` and `Result`.
- `Seqs`: sequence helpers, including Python's `s[-n:]`, `sep.join` and `f"{n}"` of
  an integer.
- `Ranking`: a stable descending sort with a top-k property. It stands for both
  Qdrant's ranked search and SQL `ORDER BY … DESC LIMIT n`.
- `LanguageRouter`, `ConversationMemory`, `VectorStore`, `Prompts`, `LlmManager`,
  `ChatAgent`, `Crud`.

Behaviour worth noting, as the code has it:

- A turn writes nothing to the vector store or to the relational database. It only
  appends to short-term memory.
- The combined text uses the labels `用户:` and `助手:`.
- No exception is caught in the turn.
- The system prompt is formatted with `user_info` alone. Retrieved context goes into
  the user message inside `<relevant_context>` tags.

## Model

| member | source | states |
|---|---|---|
| LanguageRouter.DetectLanguage | core/language_router.py:4-17 | zh-cn, nl and en map to zh, nl and en. Any other detected code, or a LangDetectException, gives `default`. Any other exception escapes unchanged. A successful result is always an app language or the default. |
| LanguageRouter.DetectLanguageWithDefault | core/language_router.py:11-17 | Called without a default, the result is an application language whenever the detector does not raise a foreign exception. Anything unrecognised becomes "zh". |
| LanguageRouter.DetectedLanguageHasItsCode | core/language_router.py:4-17 | A language other than the fallback is reported only when the detector answered exactly that language's detector code. |
| LanguageRouter.LocaleTag | core/language_router.py:20-27 | zh, nl and en get zh-CN, nl-NL and en-US. Any other input gets zh-CN. |
| LanguageRouter.LocaleTagRoundTrip | core/language_router.py:20-27 | Locale tags round-trip for the three languages, so distinct languages get distinct tags. Every other input is read back as the default Chinese. |
| ConversationMemory.Key | memory/conversation_memory.py:15-16 | The key is "conversation:" followed by the user id. |
| ConversationMemory.KeyInjective | memory/conversation_memory.py:15-16 | Distinct users have distinct keys. |
| ConversationMemory.GetMessages | memory/conversation_memory.py:41-52 | A missing or expired key gives []. A read that raises gives []. Otherwise the result is the stored list. |
| ConversationMemory.AddMessage | memory/conversation_memory.py:13-39 | A failed write changes nothing. Other keys are untouched. Expiry is reset to now + 3600. The saved list is the last min(n+1, 10) of the earlier read plus the new message. At ten messages the oldest is dropped. After a failed read only the new message is saved. |
| ConversationMemory.Clear | memory/conversation_memory.py:54-60 | A successful delete removes the key. A failed delete changes nothing. Other keys are untouched. |
| ConversationMemory.ClearEmptiesAndIsIdempotent | memory/conversation_memory.py:54-60 | After a clear the session reads as empty. Clearing again changes nothing. |
| ConversationMemory.ReadAfterWrite | memory/conversation_memory.py:18-52 | A read right after a successful add returns the last ten of the earlier read plus the new message. |
| ConversationMemory.TwoAppends | memory/conversation_memory.py:13-52 | Two successful adds at one instant leave the last ten of the earlier read followed by the two messages, and just the two when no live session was stored. |
| ConversationMemory.ReplayKeepsLastTen | memory/conversation_memory.py:13-39 | Writes spaced less than an hour apart leave the last ten of (the first read followed by everything written). The session expires an hour after the last write. |
| ConversationMemory.SessionHoldsLastTen | memory/conversation_memory.py:13-52 | Starting with no live session, a read within the hour after the last write returns exactly the last ten messages written, in order. A read at or after that hour returns []. |
| ConversationMemory.ReplayIsolated | memory/conversation_memory.py:15-39 | Writes for one user leave every other user's session as it was. |
| VectorStore.ChooseEmbeddings | memory/vector_store.py:16-42 | "openai" with a key gives OpenAI with dimension 1536. "openai" without a key rewrites the setting to "bge-m3" and falls through to the local model with 1024. "bge-m3" gives the local model with 1024. Any other setting gives no embedder and 1024. |
| VectorStore.ChooseEmbeddingsStable | memory/vector_store.py:16-42 | Running the choice again on the setting it left behind makes the same choice. |
| VectorStore.CollectionName | memory/vector_store.py:44-46 | The collection name is "conversations_" followed by the language, and the language can be read back from it. |
| VectorStore.CollectionNameInjective | memory/vector_store.py:44-46 | Each language has its own collection, "conversations_" followed by the language. |
| VectorStore.EnsureCollection | memory/vector_store.py:48-64 | A missing collection is created empty with the given dimension. Existing collections are never changed. A raised error leaves Qdrant as it was. |
| VectorStore.EnsureCollectionIdempotent | memory/vector_store.py:48-64 | Once a collection exists, ensuring it again with any dimension changes nothing. |
| VectorStore.EnsureCollections | memory/vector_store.py:44-46 | Every reachable language gets its collection. Earlier collections are kept. Only the listed languages' collections are added, each empty with the chosen dimension. |
| VectorStore.AddConversation | memory/vector_store.py:66-106 | No embedder means no change. Only the language's collection can change, and its dimension never does. Collections stay well-formed. A change is one point with the given id and the full payload, appended after the collection's other points. Its vector is the embedding of "用户: u\n助手: b". |
| VectorStore.CombinedText | memory/vector_store.py:82 | The stored text starts with "用户: " and the user message, and ends with "\n助手: " and the reply. Nothing else is in it: its length is the sum of those four parts. |
| VectorStore.CombinedTextReadBack | memory/vector_store.py:82 | Given the user message's length, the stored text determines the user message and the reply, and equal inputs give equal texts. |
| VectorStore.AddConversationAppendsOne | memory/vector_store.py:66-106 | With a fresh id and a successful embed and upsert, the collection grows by exactly one point. Earlier points stay in order, and the new point carries the combined text. |
| VectorStore.TopMatches | memory/vector_store.py:124-134 | The filtered search returns min(#user points, limit) of the user's own points, highest similarity first. No point left out scores above a point returned. |
| VectorStore.TopMatchesRanked | memory/vector_store.py:124-134 | Element by element: similarities descend along the result, and a user point left out scores no higher than any point returned. |
| VectorStore.RankedSearch | memory/vector_store.py:124-142 | The hits are min(#user points, limit) texts and scores of the caller's own points. Scores descend. Any user point scoring above the last hit is among the hits. No point is reported more often than it is stored. |
| VectorStore.Search | memory/vector_store.py:108-150 | Returns [] when there is no embedder or a backend call raises. Otherwise, with the collection present and the query vector of its dimension, the result is the ranked search among the caller's points at the given limit. |
| VectorStore.SearchDefault | memory/vector_store.py:108-134 | Without a limit at most 3 hits come back, and exactly 3 when the search goes through and the caller has at least 3 points. |
| VectorStore.SearchIsolatesUsers | memory/vector_store.py:124-134 | A search never returns another user's points. With none of the caller's points stored, it returns []. |
| VectorStore.SearchReturnsAllUserPoints | memory/vector_store.py:108-150 | When the limit covers all of the user's points, every one of them is among the hits. |
| VectorStore.IndexThenSearchFinds | memory/vector_store.py:66-150 | After a turn is indexed, a search by the same user in the same language finds its combined text. The search's limit must exceed the collection's earlier size. |
| VectorStore.IndexThenSearchFindsTop | memory/vector_store.py:66-150 | After a turn is indexed, any search by the same user in the same language with a positive limit finds its combined text, provided the turn scores strictly above every earlier point of the user's. |
| VectorStore.TopScorerFound | memory/vector_store.py:124-142 | A user point that scores strictly above all the user's other points is among the hits of any search with a positive limit. |
| VectorStore.ToHitsSubMultiset | memory/vector_store.py:136-142 | Turning a sub-multiset of points into hits gives a sub-multiset of the hits. |
| Prompts.Format | core/prompts.py:1-79 | str.format succeeds exactly when every field has an argument. Otherwise it raises KeyError for the first field without one. |
| Prompts.FormatAppend | agents/chat_agent.py:74-76 | str.format distributes over concatenation of templates: the first part's KeyError wins, then the second's, and otherwise the two texts are joined. |
| Prompts.WithContextText | core/prompts.py:1-26 | A prompt with both sections formats to the rules, the context heading and the context, then the user heading and user_info, each on its own line. |
| Prompts.WithoutContextText | agents/chat_agent.py:73-76 | A prompt without the context section formats to the rules, the user heading and user_info on its own line. |
| Prompts.FormatReadsOnlyFields | core/prompts.py:1-79 | Two argument maps that agree on the template's fields format it the same way. Extra arguments are ignored. |
| Prompts.SystemPromptsShape | core/prompts.py:1-79 | The table has exactly zh, nl and en. Each prompt's fields are context then user_info. Formatting succeeds exactly when both are given, and raises KeyError('context') when context is missing. |
| Prompts.SystemPromptsEndWithUserInfo | core/prompts.py:1-79 | Formatted with both context and user_info, every prompt as written succeeds and ends with user_info on its own line. |
| Prompts.SystemPromptsNeedContext | core/prompts.py:1-79 | The table as written covers zh, nl and en, and each of its prompts raises KeyError('context') when formatted without context. |
| Prompts.IntendedPromptsShape | agents/chat_agent.py:73-76 | The corrected table has the same languages, each with user_info as its only field, so formatting with user_info alone succeeds. |
| Prompts.IntendedPromptsEndWithUserInfo | agents/chat_agent.py:73-76 | Formatted with user_info, every corrected prompt succeeds and ends with user_info on its own line. |
| Prompts.IntendedPromptsNeedOnlyUserInfo | agents/chat_agent.py:73-76 | The corrected table covers zh, nl and en, and each of its prompts formats once user_info is given. |
| LlmManager.GetModel | core/llm_manager.py:17-35 | "zh" always gets DeepSeek. Other languages get gpt-4o-mini when a key is set. Without a key they get a ValueError that names the language. |
| LlmManager.MissingKeyMessage | core/llm_manager.py:29-34 | The ValueError message is the fixed Chinese prefix, then the language, then the fixed suffix, with nothing else. |
| LlmManager.GetModelGrouping | core/llm_manager.py:25-35 | DeepSeek is chosen exactly for "zh". With a key, every other language shares one backend. Without a key, only "zh" is served. |
| LlmManager.Translate | core/llm_manager.py:50-55 | The history becomes one message per "user" or "assistant" entry, in order. Other roles are dropped. Untranslating the result gives back exactly the kept entries. |
| LlmManager.BuildMessages | core/llm_manager.py:47-58 | The system message comes first and the user message last, and there are no other system messages. No history, or an empty one, gives exactly those two. The middle untranslates to the recognised history. |
| LlmManager.Chat | core/llm_manager.py:37-62 | A backend selection error is returned without calling a backend. Otherwise the backend's reply or error is returned as it is. |
| LlmManager.ConfigErrorSkipsBackend | core/llm_manager.py:37-47 | Without a key, a non-zh language fails with the same ValueError whatever the backends would answer. |
| ChatAgent.Startup | agents/chat_agent.py:10-13 | Startup keeps the OpenAI key. The embedder follows the embedding choice. Each reachable supported language gets a collection with the embedder's dimension. Existing collections are untouched. The agent uses the prompt table as written. |
| ChatAgent.StartupIntended | agents/chat_agent.py:10-13 | Startup with the corrected prompt table (see Findings): the same key, embedder, collections and setting, with only the table replaced. |
| ChatAgent.UserInfo | agents/chat_agent.py:24-34 | A known user's description starts with the localized name label, the name and a comma. It ends with the localized age label and the age, with nothing else in between. No user gives "新用户", "Nieuwe gebruiker" or "New user" by language. |
| ChatAgent.UserInfoShowsProfile | agents/chat_agent.py:24-34 | A known user's description starts with the localized name label and carries the stored name after it. |
| ChatAgent.NewUserInfoIsDistinct | agents/chat_agent.py:24-34 | An unknown user's description, the localized new-user text, never equals a known user's description. |
| ChatAgent.Augment | agents/chat_agent.py:41-68 | With no hits the message is the raw message. Otherwise it is <relevant_context>, the wrapped hits joined by newlines, the closing tag, the localized instruction and the raw message, and nothing else. One hit and two hits (the chat turn's limit) are spelled out in full. |
| ChatAgent.AugmentCarriesEveryHit | agents/chat_agent.py:41-68 | Every retrieved text reaches the model inside its <conversation> tags, within the user message. |
| Seqs.JoinAppend | agents/chat_agent.py:43 | Joining two non-empty runs of parts is joining each, with the separator between them. |
| ChatAgent.Prepare | agents/chat_agent.py:15-76 | A language missing from the prompt table gives KeyError(language). A format failure gives KeyError(field). Otherwise the prompt is formatted with user_info only. Retrieval uses limit 2 on the raw message. The history is the pre-turn read. |
| ChatAgent.Chat | agents/chat_agent.py:15-90 | A turn never writes Qdrant or the database. A failure leaves every store as it was. Once preparation succeeds, the turn's outcome is the LLM manager's: its reply, or its error as an LLM failure. On success Redis receives, at the reply instant, the raw user message and then the reply. |
| ChatAgent.ChatFailsWithContextPrompts | agents/chat_agent.py:73-76 | With a zh/nl/en table whose prompts all need context, as the table as written does, every turn fails with KeyError('context'), or with KeyError(language) for an unsupported language. The model is never called and no store changes. |
| ChatAgent.AsWrittenChatAlwaysFails | agents/chat_agent.py:10-76 | The agent as started never answers: every turn of it fails with that KeyError and changes no store. |
| ChatAgent.ChatReachesModelWithContextFreePrompts | agents/chat_agent.py:73-84 | With a table whose prompts need only user_info, as the corrected table does, a language of the table always gets past formatting. For zh, or any language when a key is set, the reply is the backend's. Otherwise the turn fails with the missing-key ValueError. |
| ChatAgent.IntendedChatReachesModel | agents/chat_agent.py:10-84 | The agent started with the corrected table gets past formatting on every supported language, and then answers with the backend's reply, or fails on the missing key for nl and en without one. |
| ChatAgent.SystemPromptIgnoresRetrieval | agents/chat_agent.py:36-76 | What the vector store holds, and how retrieval behaves, never changes the system prompt or the error. |
| ChatAgent.ModelSeesPreTurnHistory | agents/chat_agent.py:70-84 | The model sees the system prompt, then the recognised pre-turn history in order, then the augmented message. |
| ChatAgent.ChatRecordsTurn | agents/chat_agent.py:86-88 | When Redis answers, a successful turn leaves the last ten of the history found at the reply instant plus the raw message and the reply; the last two entries are that message and that reply. That history is the one the model saw while the session stays live; a session that expired during the model call holds just the two new messages. |
| Crud.CreateUser | database/crud.py:6-18 | One row is appended with the given fields and defaults: voice "female", no dialect, created now. Other tables are untouched. Unique ids stay unique when the new id is free. |
| Crud.CreateUserDefault | database/crud.py:6-18 | Without a language the new row is the given name, age and gender, language "zh", no dialect, voice "female", created now. Only that row is added. |
| Crud.GetUser | database/crud.py:20-22 | Gives None exactly when no row has the id. Otherwise it gives a stored row with that id. |
| Crud.CreateThenGetUser | database/crud.py:6-22 | A user just created under a free id is found again by that id. |
| Crud.GetOrCreateDefaultUser | database/crud.py:24-30 | With any user stored, it returns the first one and changes nothing. Otherwise it creates ("测试用户", 70, "female", "zh"). |
| Crud.GetOrCreateDefaultUserIdempotent | database/crud.py:24-30 | A second call creates nothing and returns the same user. |
| Crud.SaveConversation | database/crud.py:32-52 | Exactly one conversation row with the given fields and the creation instant is appended. The other tables are untouched. |
| Crud.SaveConversationDefault | database/crud.py:32-52 | Without an emotion score the new row has the given fields, no score and the creation instant. Only that row is added. |
| Crud.GetRecentConversations | database/crud.py:54-64 | Returns min(#user's conversations, limit) of the user's rows, newest first. No row left out is newer than one returned. |
| Crud.GetRecentConversationsDefault | database/crud.py:55-64 | Without a limit, min(#user conversations, 10) of the user's rows come back, newest first. None left out is newer than one returned. |
| Crud.SaveThenRecentFirst | database/crud.py:33-64 | A conversation saved later than all of the user's earlier ones is the first row of the recent list. |
| Crud.CreateRecord | database/crud.py:66-84 | Exactly one health record carrying the optional source conversation id is appended. The other tables are untouched. |
| Crud.CreateRecordAppendsToUser | database/crud.py:66-84 | A new health record is appended to its user's records and to nobody else's. |
| Ranking.Top | memory/vector_store.py:125-134 | The top n by key, highest first: min(|s|, n) elements of s, with nothing left out ranking above anything kept. |

## Left out

- Logging, `print`, async scheduling, JSON encoding and decoding, and client construction (hosts, ports, temperatures, API base URLs) are not modelled.
- The clock, uuid generation and row creation times are parameters. So are the language detector, the embedders, the similarity score and the chat backends.
- Redis and Qdrant failures are one flag per call. The fault itself is not modelled.
- Relational-store exceptions (commit failures, constraint violations) are not modelled. Each CRUD call always succeeds.
- VectorStore.Search: Qdrant's cosine similarity is not computed. Scores come from the similarity oracle, and the properties speak of their order and of which points they belong to.
- VectorStore.TopMatches: the order among equal scores is the stable insertion order. Qdrant's own tie order is unspecified.
- Crud.GetRecentConversations: the order among equal creation times is the stable insertion order. The database's tie order is unspecified.
- Crud.GetRecentConversations and VectorStore.Search: `limit` is a natural number. A negative limit, which SQL and Qdrant would reject or treat specially, is not modelled.
- VectorStore.ChooseEmbeddings: a failure to load the local BGE-M3 model, an exception at startup, is not modelled.
- Prompts.SystemPromptsShape: the literal prompt text is kept as given. That it contains no other brace pair is not proved, because the literals are too long for the solver to decide character membership. Every field is therefore an explicit segment of the template.
- Prompts.Format: only named fields `{name}` are modelled. Positional fields, format specs and `{{` escapes are not, because the templates do not use them.
- Crud.GetUser: the SQL `first()` is modelled as the first row in insertion order. The database's unordered `first()` is not.
- Crud.GetOrCreateDefaultUser: the unordered `first()` of database/crud.py:27 is modelled as the first user in insertion order. GetOrCreateDefaultUserIdempotent's "returns the same user" depends on that choice; a database free to answer any row would only promise that a second call creates nothing.
- ChatAgent.Chat: the history read happens at `now` and both `add_message` calls at the later `replyAt`. The short gap between the two appends is not modelled, so the assistant message's append sees the session the user message's append just wrote.
- app.py (HTTP endpoints), database/__init__.py (engine and sessions) and config/settings.py (environment loading) are not part of this model. The settings' defaults appear as parameters or constants: supported languages ["zh", "nl", "en"], default language "zh", and the embedding setting and OpenAI key as inputs.
- database/models.py is used only for the record shapes and their defaults. The `updated_at` columns and the user-profile table are not modelled, because no core operation reads or writes them.
- The user-facing apology on failure and the persistence of turns to the relational and vector stores are not modelled. The chat turn shown does neither.

## Findings

| source | as written | input that shows it | evidently intended | confidence | as-written member | corrected member |
|---|---|---|---|---|---|---|
| agents/chat_agent.py:73-76 with core/prompts.py:21-22,47-48,73-74 | The system prompt is formatted with `user_info` only. Every prompt still contains a `{context}` field. | Any turn in "zh", "nl" or "en", for example `chat("u1", "你好", "zh", db)` | As the comment at line 73 says, the system prompt no longer contains context. The `{context}` section is removed, and retrieved context travels only in the user message. | not executed | ChatAgent.AsWrittenChatAlwaysFails | ChatAgent.IntendedChatReachesModel |

=== FILE: chat_agent.dfy ===
/** The chat orchestrator: one turn of `ChatAgent.chat` over the three stores, and
    the agent's startup. Every external call is an oracle or a failure flag; the
    stores are values, so a turn maps a world to a reply and a new world. */
module ChatAgent {
  import opened Wrappers
  import opened Seqs
  import opened ConversationMemory
  import opened VectorStore
  import opened Prompts
  import opened LlmManager
  import opened Crud
  import LanguageRouter

  /** What the agent holds after startup: the OpenAI key the LLM manager saw, the
      vector store's embedder, and the prompt table the turn formats. */
  datatype Agent = Agent(openaiKey: string, embeddings: Option<Embedder>, prompts: map<string, Template>)

  /** The three stores one turn reads and writes. */
  datatype World = World(redis: ConversationMemory.Store, qdrant: Qdrant, db: Database)

  /** Whether each Redis call of a turn raises: the history read, then the read and
      the write inside each of the two `add_message` calls. */
  datatype RedisFaults = RedisFaults(historyRead: bool, userRead: bool, userWrite: bool, botRead: bool, botWrite: bool)

  /** The external behaviour one turn meets: the embedder, the similarity score, whether
      Qdrant's search answers, the chat backends, and Redis's failures. */
  datatype Oracles = Oracles(embed: (Embedder, string) -> Option<Vector>, similarity: (Vector, Vector) -> real,
                             searchOk: bool, llm: (Backend, seq<ChatMessage>) -> Result<string, string>,
                             redis: RedisFaults)

  /** The exceptions that escape `chat`: a `KeyError` from the prompt table or from
      formatting, and whatever the LLM manager raises. */
  datatype ChatError = PromptKeyError(key: string) | LlmFailure(error: LlmError)

  /** What startup leaves: the agent, Qdrant with the per-language collections, and
      the `embedding_model` setting as rewritten. */
  datatype Started = Started(agent: Agent, qdrant: Qdrant, embeddingModel: string)

  /** `ChatAgent.__init__`: the LLM manager keeps the OpenAI key, the vector store
      chooses its embedder and ensures one collection per supported language with the
      embedder's dimension. The agent formats with the prompt table as written. */
  function Startup(embeddingModel: string, openaiKey: string, supportedLanguages: seq<string>,
                   qdrant: Qdrant, reachable: string -> bool): (r: Started)
    ensures r.agent.openaiKey == openaiKey && r.agent.prompts == SystemPrompts
    ensures r.agent.embeddings == ChooseEmbeddings(embeddingModel, openaiKey).embeddings
    ensures r.embeddingModel == ChooseEmbeddings(embeddingModel, openaiKey).embeddingModel
    ensures forall i :: 0 <= i < |supportedLanguages| && reachable(CollectionName(supportedLanguages[i]))
                        ==> CollectionName(supportedLanguages[i]) in r.qdrant
    ensures forall n :: n in qdrant ==> n in r.qdrant && r.qdrant[n] == qdrant[n]
    ensures forall n :: n in r.qdrant && n !in qdrant ==> r.qdrant[n] == Collection(DimensionOf(r.agent.embeddings), [])
  {
    var setup := ChooseEmbeddings(embeddingModel, openaiKey);
    var q := EnsureCollections(qdrant, supportedLanguages, setup.dim, reachable);
    Started(Agent(openaiKey, setup.embeddings, SystemPrompts), q, setup.embeddingModel)
  }

  /** Startup with the corrected prompt table: everything else is what `Startup` does. */
  function StartupIntended(embeddingModel: string, openaiKey: string, supportedLanguages: seq<string>,
                           qdrant: Qdrant, reachable: string -> bool): (r: Started)
    ensures r.agent.prompts == IntendedPrompts
    ensures var w := Startup(embeddingModel, openaiKey, supportedLanguages, qdrant, reachable);
            && r.agent.openaiKey == w.agent.openaiKey && r.agent.embeddings == w.agent.embeddings
            && r.qdrant == w.qdrant && r.embeddingModel == w.embeddingModel
  {
    var w := Startup(embeddingModel, openaiKey, supportedLanguages, qdrant, reachable);
    w.(agent := w.agent.(prompts := IntendedPrompts))
  }

  /** Python's `f"{x}"` of an optional string column. */
  function ShowText(s: Option<string>): string
  {
    match s
    case None => "None"
    case Some(v) => v
  }

  /** Python's `f"{x}"` of an optional integer column. */
  function ShowAge(a: Option<int>): string
  {
    match a
    case None => "None"
    case Some(n) => ShowInt(n)
  }

  /** The localized name and age labels; English for any language but zh and nl. */
  function ProfileLabels(language: string): (string, string)
  {
    if language == "zh" then ("姓名", "年龄") else if language == "nl" then ("Naam", "Leeftijd") else ("Name", "Age")
  }

  /** The localized text for a user with no profile row. */
  function NewUserText(language: string): string
  {
    if language == "zh" then "新用户" else if language == "nl" then "Nieuwe gebruiker" else "New user"
  }

  /** The one-line user description put into the system prompt: for a known user the
      labelled name, a comma, then the labelled age; for an unknown user the localized
      new-user text. */
  function UserInfo(language: string, user: Option<User>): (r: string)
    ensures user.None? && language == "zh" ==> r == "新用户"
    ensures user.None? && language == "nl" ==> r == "Nieuwe gebruiker"
    ensures user.None? && language != "zh" && language != "nl" ==> r == "New user"
    ensures user.Some? ==> ProfileLabels(language).0 + ": " + ShowText(user.value.name) + ", " <= r
    ensures user.Some? ==> IsSuffix(ProfileLabels(language).1 + ": " + ShowAge(user.value.age), r)
    ensures user.Some? ==>
      |r| == |ProfileLabels(language).0| + 2 + |ShowText(user.value.name)| + 2
             + |ProfileLabels(language).1| + 2 + |ShowAge(user.value.age)|
  {
    match user
    case None => NewUserText(language)
    case Some(u) =>
      var (nameLabel, ageLabel) := ProfileLabels(language);
      var head, tail := nameLabel + ": " + ShowText(u.name) + ", ", ageLabel + ": " + ShowAge(u.age);
      assert head + tail == nameLabel + ": " + ShowText(u.name) + ", " + ageLabel + ": " + ShowAge(u.age);
      head + tail
  }

  /** A known user's description starts with the localized name label and carries the
      stored name right after it. */
  lemma UserInfoShowsProfile(language: string, user: Option<User>)
    ensures user.Some? ==> OccursAt(ShowText(user.value.name), UserInfo(language, user), |ProfileLabels(language).0| + 2)
    ensures user.Some? ==> ProfileLabels(language).0 + ": " <= UserInfo(language, user)
  {
    if user.Some? {
      var (nameLabel, ageLabel) := ProfileLabels(language);
      var v := ShowText(user.value.name);
      var rest := ", " + ageLabel + ": " + ShowAge(user.value.age);
      assert UserInfo(language, user) == (nameLabel + ": ") + v + rest;
      MiddleSlice(nameLabel + ": ", v, rest);
    }
  }

  /** An unknown user's description, the localized new-user text, is never a known
      user's description: the name label's colon sits where the new-user text has none. */
  lemma NewUserInfoIsDistinct(language: string, u: User)
    ensures UserInfo(language, Some(u)) != UserInfo(language, None)
  {
    var nameLabel := ProfileLabels(language).0;
    var rest := " " + ShowText(u.name) + ", " + ProfileLabels(language).1 + ": " + ShowAge(u.age);
    assert UserInfo(language, Some(u)) == nameLabel + ":" + rest;
    assert (nameLabel + ":" + rest)[|nameLabel|] == ':';
    assert NewUserText(language)[|nameLabel|] != ':';
  }

  /** The localized instruction that follows the retrieved context. */
  function Instruction(language: string): string
  {
    if language == "zh" then "请根据上述相关上下文（如果有用的话）回答用户的问题："
    else if language == "nl" then "Beantwoord de vraag van de gebruiker op basis van de bovenstaande context (indien relevant):"
    else "Answer the user's question based on the relevant context above (if applicable):"
  }

  /** One retrieved text in its delimiting tag. */
  function Wrap(text: string): string
  {
    "<conversation>\n" + text + "\n</conversation>"
  }

  function WrapAll(hits: seq<Hit>): (r: seq<string>)
    ensures |r| == |hits|
    ensures forall i :: 0 <= i < |hits| ==> r[i] == Wrap(hits[i].text)
  {
    if |hits| == 0 then [] else [Wrap(hits[0].text)] + WrapAll(hits[1..])
  }

  const ContextOpen: string := "<relevant_context>\n"
  const ContextClose: string := "\n</relevant_context>\n\n"

  /** The user message the model receives: the raw message when nothing was retrieved;
      otherwise the wrapped context, the instruction and then the raw message. */
  function Augment(language: string, hits: seq<Hit>, userMessage: string): (r: string)
    ensures hits == [] ==> r == userMessage
    ensures hits != [] ==> ContextOpen <= r
    ensures hits != [] ==> IsSuffix(ContextClose + Instruction(language) + "\n" + userMessage, r)
    ensures hits != [] ==>
      var tail := ContextClose + Instruction(language) + "\n" + userMessage;
      && |r| == |ContextOpen| + |Join("\n", WrapAll(hits))| + |tail|
      && r[|ContextOpen|..|r| - |tail|] == Join("\n", WrapAll(hits))
    ensures |hits| == 1 ==>
      r == ContextOpen + Wrap(hits[0].text) + (ContextClose + Instruction(language) + "\n" + userMessage)
    ensures |hits| == 2 ==>
      r == ContextOpen + (Wrap(hits[0].text) + "\n" + Wrap(hits[1].text))
           + (ContextClose + Instruction(language) + "\n" + userMessage)
  {
    if hits == [] then userMessage
    else
      var contextText := Join("\n", WrapAll(hits));
      var tail := ContextClose + Instruction(language) + "\n" + userMessage;
      var r := ContextOpen + contextText + tail;
      assert r == (ContextOpen + contextText) + tail;
      MiddleSlice(ContextOpen, contextText, tail);
      JoinSmall("\n", WrapAll(hits));
      r
  }

  /** `a` occurs in `b` starting at index `i`. */
  ghost predicate OccursAt(a: string, b: string, i: int)
  {
    0 <= i <= |b| - |a| && b[i..i + |a|] == a
  }

  ghost predicate IsSubstring(a: string, b: string)
  {
    exists i :: OccursAt(a, b, i)
  }

  lemma {:induction false} JoinContainsParts(sep: string, parts: seq<string>, k: nat)
    requires k < |parts|
    ensures IsSubstring(parts[k], Join(sep, parts))
  {
    var j := Join(sep, parts);
    if k == 0 {
      assert OccursAt(parts[0], j, 0);
    } else {
      JoinContainsParts(sep, parts[1..], k - 1);
      var rest := Join(sep, parts[1..]);
      assert parts[1..][k - 1] == parts[k];
      var i :| OccursAt(parts[k], rest, i);
      var off := |parts[0]| + |sep|;
      assert j == parts[0] + sep + rest;
      assert j[off + i..off + i + |parts[k]|] == rest[i..i + |parts[k]|];
      assert OccursAt(parts[k], j, off + i);
    }
  }

  /** Every retrieved text reaches the model inside its `<conversation>` tag within the
      user message. */
  lemma AugmentCarriesEveryHit(language: string, hits: seq<Hit>, userMessage: string, k: nat)
    requires k < |hits|
    ensures IsSubstring(Wrap(hits[k].text), Augment(language, hits, userMessage))
  {
    var parts := WrapAll(hits);
    var contextText := Join("\n", parts);
    JoinContainsParts("\n", parts, k);
    var i :| OccursAt(parts[k], contextText, i);
    var tail := ContextClose + Instruction(language) + "\n" + userMessage;
    assert Augment(language, hits, userMessage) == ContextOpen + contextText + tail;
    OccursInMiddle(parts[k], ContextOpen, contextText, tail, i);
  }

  lemma OccursInMiddle(a: string, prefix: string, middle: string, suffix: string, i: int)
    requires OccursAt(a, middle, i)
    ensures OccursAt(a, prefix + middle + suffix, |prefix| + i)
  {
    var b := prefix + middle + suffix;
    assert b[|prefix| + i..|prefix| + i + |a|] == middle[i..i + |a|];
  }

  /** Everything a turn computes before it calls the model. */
  datatype Prepared = Prepared(userInfo: string, hits: seq<Hit>, userMessage: string,
                               history: seq<Msg>, systemPrompt: string)

  /** Steps 1 to 4 of `chat`: the user, retrieval with limit 2 on the raw message, the
      augmented message, the pre-turn history, and the system prompt formatted with
      `user_info` only. Only the prompt table and its formatting can fail here. */
  function Prepare(agent: Agent, world: World, now: int, o: Oracles,
                   userId: string, userMessage: string, language: string): (r: Result<Prepared, ChatError>)
    ensures language !in agent.prompts ==> r == Err(PromptKeyError(language))
    ensures language in agent.prompts ==>
      var args := map["user_info" := UserInfo(language, GetUser(world.db, userId))];
      match Format(agent.prompts[language], args)
      case Err(e) => r == Err(PromptKeyError(e.key))
      case Ok(prompt) => r.Ok? && r.value.systemPrompt == prompt
    ensures r.Ok? ==> r.value.hits == Search(world.qdrant, agent.embeddings, o.embed, o.similarity, o.searchOk,
                                             userId, language, userMessage, 2)
    ensures r.Ok? ==> |r.value.hits| <= 2 && r.value.userMessage == Augment(language, r.value.hits, userMessage)
    ensures r.Ok? ==> r.value.history == GetMessages(world.redis, now, userId, o.redis.historyRead)
  {
    var userInfo := UserInfo(language, GetUser(world.db, userId));
    var hits := Search(world.qdrant, agent.embeddings, o.embed, o.similarity, o.searchOk, userId, language, userMessage, 2);
    var fullMessage := Augment(language, hits, userMessage);
    var history := GetMessages(world.redis, now, userId, o.redis.historyRead);
    if language !in agent.prompts then Err(PromptKeyError(language))
    else
      match Format(agent.prompts[language], map["user_info" := userInfo])
      case Err(e) => Err(PromptKeyError(e.key))
      case Ok(systemPrompt) => Ok(Prepared(userInfo, hits, fullMessage, history, systemPrompt))
  }

  /** `ChatAgent.chat`: prepare at instant `now`, call the model with the augmented
      message and the pre-turn history, then, at the later instant `replyAt`, append the
      raw user message and the reply to short-term memory. Nothing is caught: any
      failure before the reply leaves every store as it was. The vector store and the
      relational store are never written. */
  function Chat(agent: Agent, world: World, now: int, replyAt: int, o: Oracles,
                userId: string, userMessage: string, language: string): (r: (Result<string, ChatError>, World))
    ensures r.1.qdrant == world.qdrant && r.1.db == world.db
    ensures r.0.Err? ==> r.1 == world
    ensures Prepare(agent, world, now, o, userId, userMessage, language).Err? ==>
              r.0 == Err(Prepare(agent, world, now, o, userId, userMessage, language).error)
    ensures r.0.Ok? ==>
      var p := Prepare(agent, world, now, o, userId, userMessage, language);
      && p.Ok?
      && GetModel(language, agent.openaiKey).Ok?
      && o.llm(GetModel(language, agent.openaiKey).value,
               BuildMessages(p.value.systemPrompt, p.value.userMessage, Some(p.value.history))) == Ok(r.0.value)
    ensures Prepare(agent, world, now, o, userId, userMessage, language).Ok? ==>
      var p := Prepare(agent, world, now, o, userId, userMessage, language).value;
      r.0 == match LlmManager.Chat(language, agent.openaiKey, o.llm, p.systemPrompt, p.userMessage, Some(p.history))
             case Ok(reply) => Ok(reply)
             case Err(e) => Err(LlmFailure(e))
    ensures r.0.Ok? ==>
      var afterUser := AddMessage(world.redis, replyAt, userId, "user", userMessage, o.redis.userRead, o.redis.userWrite);
      r.1.redis == AddMessage(afterUser, replyAt, userId, "assistant", r.0.value, o.redis.botRead, o.redis.botWrite)
  {
    match Prepare(agent, world, now, o, userId, userMessage, language)
    case Err(e) => (Err(e), world)
    case Ok(p) =>
      match LlmManager.Chat(language, agent.openaiKey, o.llm, p.systemPrompt, p.userMessage, Some(p.history))
      case Err(e) => (Err(LlmFailure(e)), world)
      case Ok(reply) =>
        var afterUser := AddMessage(world.redis, replyAt, userId, "user", userMessage, o.redis.userRead, o.redis.userWrite);
        var afterBot := AddMessage(afterUser, replyAt, userId, "assistant", reply, o.redis.botRead, o.redis.botWrite);
        (Ok(reply), world.(redis := afterBot))
  }

  /** With a table whose every prompt needs `{context}` (the table as written), every
      turn fails: a supported language's prompt needs `context`, which the turn never
      supplies, and any other language is missing from the table. The model is never
      called and no store changes. */
  lemma ChatFailsWithContextPrompts(agent: Agent, world: World, now: int, replyAt: int, o: Oracles,
                                    userId: string, userMessage: string, language: string)
    requires agent.prompts.Keys == LanguageRouter.AppLanguages && NeedsContext(agent.prompts)
    ensures Chat(agent, world, now, replyAt, o, userId, userMessage, language)
            == (Err(PromptKeyError(if language in LanguageRouter.AppLanguages then "context" else language)), world)
  {
    var args := map["user_info" := UserInfo(language, GetUser(world.db, userId))];
    assert "context" !in args;
    if language in agent.prompts {
      assert Format(agent.prompts[language], args) == Err(KeyError("context"));
    }
  }

  /** The agent as started never answers: every turn in "zh", "nl" or "en" ends in
      `KeyError('context')`, any other in `KeyError(language)`, and no store changes. */
  lemma AsWrittenChatAlwaysFails(embeddingModel: string, openaiKey: string, supportedLanguages: seq<string>,
                                 qdrant: Qdrant, reachable: string -> bool,
                                 world: World, now: int, replyAt: int, o: Oracles,
                                 userId: string, userMessage: string, language: string)
    ensures var agent := Startup(embeddingModel, openaiKey, supportedLanguages, qdrant, reachable).agent;
            Chat(agent, world, now, replyAt, o, userId, userMessage, language)
            == (Err(PromptKeyError(if language in {"zh", "nl", "en"} then "context" else language)), world)
  {
    var agent := Startup(embeddingModel, openaiKey, supportedLanguages, qdrant, reachable).agent;
    SystemPromptsNeedContext();
    ChatFailsWithContextPrompts(agent, world, now, replyAt, o, userId, userMessage, language);
  }

  /** With a table whose prompts need only the user information (the corrected table),
      a language of the table gets past formatting: the turn's outcome is then decided
      by the model alone. A Chinese turn, or any turn when an OpenAI key is set, returns
      what the backend answered; otherwise the turn fails on configuration. */
  lemma ChatReachesModelWithContextFreePrompts(agent: Agent, world: World, now: int, replyAt: int, o: Oracles,
                                               userId: string, userMessage: string, language: string)
    requires NeedsOnlyUserInfo(agent.prompts)
    requires language in agent.prompts
    ensures Prepare(agent, world, now, o, userId, userMessage, language).Ok?
    ensures var p := Prepare(agent, world, now, o, userId, userMessage, language).value;
            var backend := if language == "zh" then DeepSeekChat else Gpt4oMini;
            var reply := o.llm(backend, BuildMessages(p.systemPrompt, p.userMessage, Some(p.history)));
            (language == "zh" || agent.openaiKey != "") && reply.Ok? ==>
              Chat(agent, world, now, replyAt, o, userId, userMessage, language).0 == Ok(reply.value)
    ensures language != "zh" && agent.openaiKey == "" ==>
              Chat(agent, world, now, replyAt, o, userId, userMessage, language)
              == (Err(LlmFailure(ConfigError(MissingKeyMessage(language)))), world)
  {
    var args := map["user_info" := UserInfo(language, GetUser(world.db, userId))];
    assert "user_info" in args;
    assert Format(agent.prompts[language], args).Ok?;
  }

  /** The agent started with the corrected table reaches the model on every supported
      language: a Chinese turn, or any turn when an OpenAI key is set, returns what the
      backend answered; without a key, a Dutch or English turn fails on configuration. */
  lemma IntendedChatReachesModel(embeddingModel: string, openaiKey: string, supportedLanguages: seq<string>,
                                 qdrant: Qdrant, reachable: string -> bool,
                                 world: World, now: int, replyAt: int, o: Oracles,
                                 userId: string, userMessage: string, language: string)
    requires language in {"zh", "nl", "en"}
    ensures var agent := StartupIntended(embeddingModel, openaiKey, supportedLanguages, qdrant, reachable).agent;
            Prepare(agent, world, now, o, userId, userMessage, language).Ok?
    ensures var agent := StartupIntended(embeddingModel, openaiKey, supportedLanguages, qdrant, reachable).agent;
            var p := Prepare(agent, world, now, o, userId, userMessage, language).value;
            var backend := if language == "zh" then DeepSeekChat else Gpt4oMini;
            var reply := o.llm(backend, BuildMessages(p.systemPrompt, p.userMessage, Some(p.history)));
            (language == "zh" || openaiKey != "") && reply.Ok? ==>
              Chat(agent, world, now, replyAt, o, userId, userMessage, language).0 == Ok(reply.value)
    ensures var agent := StartupIntended(embeddingModel, openaiKey, supportedLanguages, qdrant, reachable).agent;
            language != "zh" && openaiKey == "" ==>
              Chat(agent, world, now, replyAt, o, userId, userMessage, language)
              == (Err(LlmFailure(ConfigError(MissingKeyMessage(language)))), world)
  {
    var agent := StartupIntended(embeddingModel, openaiKey, supportedLanguages, qdrant, reachable).agent;
    IntendedPromptsNeedOnlyUserInfo();
    ChatReachesModelWithContextFreePrompts(agent, world, now, replyAt, o, userId, userMessage, language);
  }

  /** Retrieved text never reaches the system prompt: whatever the vector store holds
      and however retrieval behaves, the system prompt (or the error) is the same. */
  lemma SystemPromptIgnoresRetrieval(agent: Agent, world: World, now: int, o: Oracles, qdrant': Qdrant,
                                     embed': (Embedder, string) -> Option<Vector>,
                                     similarity': (Vector, Vector) -> real, searchOk': bool,
                                     userId: string, userMessage: string, language: string)
    ensures var p := Prepare(agent, world, now, o, userId, userMessage, language);
            var p' := Prepare(agent, world.(qdrant := qdrant'), now,
                              o.(embed := embed', similarity := similarity', searchOk := searchOk'),
                              userId, userMessage, language);
            && (p.Ok? <==> p'.Ok?)
            && (p.Err? ==> p == p')
            && (p.Ok? ==> p.value.systemPrompt == p'.value.systemPrompt)
  {
  }

  /** The model sees only the history from before the turn: the messages between the
      system prompt and the user message are the recognised entries of the pre-turn
      read, in order. */
  lemma ModelSeesPreTurnHistory(agent: Agent, world: World, now: int, o: Oracles,
                                userId: string, userMessage: string, language: string)
    requires Prepare(agent, world, now, o, userId, userMessage, language).Ok?
    ensures var p := Prepare(agent, world, now, o, userId, userMessage, language).value;
            var ms := BuildMessages(p.systemPrompt, p.userMessage, Some(p.history));
            && ms[0] == SystemMessage(p.systemPrompt)
            && ms[|ms| - 1] == HumanMessage(p.userMessage)
            && Untranslate(ms[1..|ms| - 1]) == Recognised(GetMessages(world.redis, now, userId, o.redis.historyRead))
  {
  }

  /** With Redis answering, a successful turn leaves the session holding the last ten
      of the history `add_message` finds at the reply instant, followed by the raw (not
      augmented) user message and then the reply. That history is the one the model saw
      when the session is still live at the reply instant; when the session expired
      while the model was answering, the session holds just the turn's two messages. */
  lemma ChatRecordsTurn(agent: Agent, world: World, now: int, replyAt: int, o: Oracles,
                        userId: string, userMessage: string, language: string)
    requires o.redis == RedisFaults(false, false, false, false, false)
    ensures var r := Chat(agent, world, now, replyAt, o, userId, userMessage, language);
            var before := GetMessages(world.redis, replyAt, userId, false);
            var after := GetMessages(r.1.redis, replyAt, userId, false);
            var turn := [Msg("user", userMessage), Msg("assistant", if r.0.Ok? then r.0.value else "")];
            r.0.Ok? ==>
            && after == Last(before + turn, MaxMessages)
            && |after| >= 2
            && after[|after| - 2..] == turn
            && (!Live(world.redis, Key(userId), replyAt) ==> after == turn)
    ensures now <= replyAt && Live(world.redis, Key(userId), replyAt) ==>
              GetMessages(world.redis, replyAt, userId, false) == GetMessages(world.redis, now, userId, false)
  {
    var r := Chat(agent, world, now, replyAt, o, userId, userMessage, language);
    if r.0.Ok? {
      var u := Msg("user", userMessage);
      var b := Msg("assistant", r.0.value);
      assert r.1.redis == AddMessage(AddMessage(world.redis, replyAt, userId, u.role, u.content, false, false),
                                     replyAt, userId, b.role, b.content, false, false);
      TwoAppends(world.redis, replyAt, userId, u, b);
    }
  }
}

=== FILE: conversation_memory.dfy ===
/** Short-term memory: per user, the last ten chat messages kept under one Redis
    key with a sliding one-hour expiry. Redis is a map from key to the stored list
    and the absolute instant it expires; every Redis call takes a flag saying
    whether the call raised, and every such failure is swallowed. */
module ConversationMemory {
  import opened Seqs

  /** One stored message, the JSON object {"role": ..., "content": ...}. */
  datatype Msg = Msg(role: string, content: string)

  /** A Redis value: the decoded message list and the instant it expires. */
  datatype Entry = Entry(messages: seq<Msg>, expiry: int)

  type Store = map<string, Entry>

  /** Seconds a session lives after its last write. */
  const Ttl: int := 3600

  /** Messages kept per session. */
  const MaxMessages: nat := 10

  const KeyPrefix: string := "conversation:"

  /** `_get_key`: the Redis key of a user's session. */
  function Key(userId: string): (k: string)
    ensures |k| == |KeyPrefix| + |userId|
    ensures k[..|KeyPrefix|] == KeyPrefix && k[|KeyPrefix|..] == userId
  {
    KeyPrefix + userId
  }

  /** Distinct users have distinct keys. */
  lemma KeyInjective(a: string, b: string)
    ensures Key(a) == Key(b) <==> a == b
  {
  }

  /** Redis holds an unexpired value under `key` at instant `now`. */
  predicate Live(store: Store, key: string, now: int)
  {
    key in store && now < store[key].expiry
  }

  /** `get_messages`: the stored list, or [] when nothing live is stored or the read raised. */
  function GetMessages(store: Store, now: int, userId: string, readFails: bool): (r: seq<Msg>)
    ensures readFails ==> r == []
    ensures !Live(store, Key(userId), now) ==> r == []
    ensures !readFails && Live(store, Key(userId), now) ==> r == store[Key(userId)].messages
  {
    if readFails || !Live(store, Key(userId), now) then [] else store[Key(userId)].messages
  }

  /** Every key other than `key` is bound exactly as before. */
  ghost predicate OthersUnchanged(store: Store, store': Store, key: string)
  {
    forall k :: k != key ==> (k in store' <==> k in store) && (k in store' ==> store'[k] == store[k])
  }

  /** `add_message`: read the session (a failed read counts as empty), append the new
      message, keep the last ten, and write the whole list back with a fresh expiry.
      A failed write leaves Redis as it was. */
  function AddMessage(store: Store, now: int, userId: string, role: string, content: string,
                      readFails: bool, writeFails: bool): (r: Store)
    ensures writeFails ==> r == store
    ensures OthersUnchanged(store, r, Key(userId))
    ensures !writeFails ==> Key(userId) in r && r[Key(userId)].expiry == now + Ttl
    ensures !writeFails ==>
      var before := GetMessages(store, now, userId, readFails);
      var saved := r[Key(userId)].messages;
      && |saved| == Min(|before| + 1, MaxMessages)
      && IsSuffix(saved, before + [Msg(role, content)])
    ensures !writeFails && |GetMessages(store, now, userId, readFails)| == MaxMessages ==>
      r[Key(userId)].messages == GetMessages(store, now, userId, readFails)[1..] + [Msg(role, content)]
    ensures !writeFails && readFails ==> r[Key(userId)].messages == [Msg(role, content)]
  {
    if writeFails then store
    else
      var messages := GetMessages(store, now, userId, readFails) + [Msg(role, content)];
      store[Key(userId) := Entry(Last(messages, MaxMessages), now + Ttl)]
  }

  /** `clear`: delete the session's key; a failed delete leaves Redis as it was. */
  function Clear(store: Store, userId: string, deleteFails: bool): (r: Store)
    ensures deleteFails ==> r == store
    ensures !deleteFails ==> Key(userId) !in r
    ensures OthersUnchanged(store, r, Key(userId))
  {
    if deleteFails then store else store - {Key(userId)}
  }

  /** After a successful `clear`, the session reads as empty, and clearing again changes nothing. */
  lemma ClearEmptiesAndIsIdempotent(store: Store, userId: string, now: int, readFails: bool, deleteFails: bool)
    ensures GetMessages(Clear(store, userId, false), now, userId, readFails) == []
    ensures Clear(Clear(store, userId, false), userId, deleteFails) == Clear(store, userId, false)
  {
  }

  /** One call of `add_message` that neither reads nor writes with a failure. */
  datatype Write = Write(at: int, role: string, content: string)

  function WrittenMessages(ws: seq<Write>): (r: seq<Msg>)
    ensures |r| == |ws|
    ensures forall i :: 0 <= i < |ws| ==> r[i] == Msg(ws[i].role, ws[i].content)
  {
    if |ws| == 0 then [] else WrittenMessages(ws[..|ws| - 1]) + [Msg(ws[|ws| - 1].role, ws[|ws| - 1].content)]
  }

  /** The writes, in order, all for one user. */
  function Replay(store: Store, userId: string, ws: seq<Write>): Store
  {
    if |ws| == 0 then store
    else
      var w := ws[|ws| - 1];
      AddMessage(Replay(store, userId, ws[..|ws| - 1]), w.at, userId, w.role, w.content, false, false)
  }

  /** Each write comes before the session left by the previous one expires. */
  ghost predicate Sliding(ws: seq<Write>)
  {
    forall i :: 1 <= i < |ws| ==> ws[i].at < ws[i - 1].at + Ttl
  }

  lemma AppendAssociates(a: seq<Msg>, b: seq<Msg>, x: Msg)
    ensures a + (b + [x]) == (a + b) + [x]
  {
  }

  /** What a successful `add_message` writes under the user's key. */
  lemma AddMessageWrites(store: Store, now: int, userId: string, m: Msg)
    ensures Key(userId) in AddMessage(store, now, userId, m.role, m.content, false, false)
    ensures AddMessage(store, now, userId, m.role, m.content, false, false)[Key(userId)]
            == Entry(Last(GetMessages(store, now, userId, false) + [m], MaxMessages), now + Ttl)
  {
  }

  /** Reading straight after a successful `add_message` returns the last ten of the
      earlier read plus the new message. */
  lemma ReadAfterWrite(store: Store, now: int, userId: string, m: Msg)
    ensures GetMessages(AddMessage(store, now, userId, m.role, m.content, false, false), now, userId, false)
            == Last(GetMessages(store, now, userId, false) + [m], MaxMessages)
  {
    var s' := AddMessage(store, now, userId, m.role, m.content, false, false);
    AddMessageWrites(store, now, userId, m);
    assert Live(s', Key(userId), now);
  }

  /** Two successful `add_message` calls at one instant: the session then holds the
      last ten of the earlier read followed by the two messages, and just the two when
      nothing live was stored. */
  lemma TwoAppends(store: Store, now: int, userId: string, u: Msg, b: Msg)
    ensures var before := GetMessages(store, now, userId, false);
            var after := GetMessages(AddMessage(AddMessage(store, now, userId, u.role, u.content, false, false),
                                                now, userId, b.role, b.content, false, false), now, userId, false);
            && after == Last(before + [u, b], MaxMessages)
            && |after| >= 2 && after[|after| - 2..] == [u, b]
            && (!Live(store, Key(userId), now) ==> after == [u, b])
  {
    var before := GetMessages(store, now, userId, false);
    var afterUser := AddMessage(store, now, userId, u.role, u.content, false, false);
    ReadAfterWrite(store, now, userId, u);
    ReadAfterWrite(afterUser, now, userId, b);
    LastOfLastAppend(before + [u], b, MaxMessages);
    AppendPair(before, u, b);
    LastKeepsTail(before, [u, b], MaxMessages);
    if !Live(store, Key(userId), now) {
      LastOfFresh(before, [u, b], MaxMessages);
    }
  }

  /** One successful `add_message` on a live session holding the last ten of `sofar`
      leaves the last ten of `sofar` plus the new message. */
  lemma AddMessageSlides(prev: Store, now: int, userId: string, m: Msg, sofar: seq<Msg>)
    requires Live(prev, Key(userId), now)
    requires prev[Key(userId)].messages == Last(sofar, MaxMessages)
    ensures Key(userId) in AddMessage(prev, now, userId, m.role, m.content, false, false)
    ensures AddMessage(prev, now, userId, m.role, m.content, false, false)[Key(userId)]
            == Entry(Last(sofar + [m], MaxMessages), now + Ttl)
  {
    LastOfLastAppend(sofar, m, MaxMessages);
  }

  /** The window a run of writes leaves, as `ReplayKeepsLastTen` states it. */
  ghost predicate HoldsWindow(store: Store, userId: string, ws: seq<Write>)
    requires |ws| > 0
  {
    && Key(userId) in Replay(store, userId, ws)
    && Replay(store, userId, ws)[Key(userId)]
       == Entry(Last(GetMessages(store, ws[0].at, userId, false) + WrittenMessages(ws), MaxMessages),
                ws[|ws| - 1].at + Ttl)
  }

  lemma ReplayFirst(store: Store, userId: string, ws: seq<Write>)
    requires |ws| == 1
    ensures HoldsWindow(store, userId, ws)
  {
    var w := ws[0];
    assert Replay(store, userId, ws[..0]) == store;
    AddMessageWrites(store, w.at, userId, Msg(w.role, w.content));
    assert WrittenMessages(ws) == [Msg(w.role, w.content)];
  }

  lemma ReplayNext(store: Store, userId: string, ws: seq<Write>)
    requires |ws| > 1
    requires ws[|ws| - 1].at < ws[|ws| - 2].at + Ttl
    requires HoldsWindow(store, userId, ws[..|ws| - 1])
    ensures HoldsWindow(store, userId, ws)
  {
    var n := |ws|;
    var w := ws[n - 1];
    var m := Msg(w.role, w.content);
    var init := ws[..n - 1];
    var before := GetMessages(store, ws[0].at, userId, false);
    assert init[0] == ws[0] && init[n - 2] == ws[n - 2];
    assert WrittenMessages(ws) == WrittenMessages(init) + [m];
    AddMessageSlides(Replay(store, userId, init), w.at, userId, m, before + WrittenMessages(init));
    AppendAssociates(before, WrittenMessages(init), m);
  }

  /** With writes no more than an hour apart, the session holds the last ten of what
      was there at the first write followed by everything written, and expires an
      hour after the last write. */
  lemma {:induction false} ReplayKeepsLastTen(store: Store, userId: string, ws: seq<Write>)
    requires |ws| > 0 && Sliding(ws)
    ensures HoldsWindow(store, userId, ws)
  {
    var n := |ws|;
    if n == 1 {
      ReplayFirst(store, userId, ws);
    } else {
      var init := ws[..n - 1];
      assert Sliding(init) by {
        forall i | 1 <= i < |init| ensures init[i].at < init[i - 1].at + Ttl {
          assert init[i] == ws[i] && init[i - 1] == ws[i - 1];
        }
      }
      ReplayKeepsLastTen(store, userId, init);
      ReplayNext(store, userId, ws);
    }
  }

  /** The session property: starting from no live session, after any run of
      writes no more than an hour apart, a read within the hour after the last write
      returns exactly the last ten messages written, in order; a read an hour or more
      after the last write returns nothing. */
  lemma SessionHoldsLastTen(store: Store, userId: string, ws: seq<Write>, t: int)
    requires |ws| > 0 && Sliding(ws)
    requires !Live(store, Key(userId), ws[0].at)
    ensures t < ws[|ws| - 1].at + Ttl ==>
              GetMessages(Replay(store, userId, ws), t, userId, false) == Last(WrittenMessages(ws), MaxMessages)
    ensures t >= ws[|ws| - 1].at + Ttl ==> GetMessages(Replay(store, userId, ws), t, userId, false) == []
  {
    ReplayKeepsLastTen(store, userId, ws);
    assert GetMessages(store, ws[0].at, userId, false) + WrittenMessages(ws) == WrittenMessages(ws);
  }

  /** Writes for one user leave every other user's session as it was. */
  lemma {:induction false} ReplayIsolated(store: Store, userId: string, ws: seq<Write>, other: string)
    requires other != userId
    ensures OthersUnchanged(store, Replay(store, userId, ws), Key(userId))
    ensures Key(other) in store ==> Replay(store, userId, ws)[Key(other)] == store[Key(other)]
  {
    KeyInjective(userId, other);
    if |ws| > 0 {
      ReplayIsolated(store, userId, ws[..|ws| - 1], other);
    }
  }
}

=== FILE: crud.dfy ===
/** The relational store's CRUD operations over abstract tables. A table is its rows
    in insertion order; the fresh primary key and the creation instant of a new row
    are parameters, standing for the uuid and clock defaults of the schema. */
module Crud {
  import opened Wrappers
  import opened Seqs
  import opened Ranking

  datatype User = User(userId: string, name: Option<string>, age: Option<int>, gender: Option<string>,
                       preferredLanguage: string, dialect: Option<string>, voiceGender: string, createdAt: int)

  datatype Conversation = Conversation(conversationId: string, userId: string, language: string,
                                       userMessage: string, botResponse: string,
                                       emotionScore: Option<real>, createdAt: int)

  /** A health observation; its JSON value stays opaque text. */
  datatype HealthRecord = HealthRecord(recordId: string, userId: string, recordType: string, value: string,
                                       extractedFromConversationId: Option<string>, createdAt: int)

  datatype Database = Database(users: seq<User>, conversations: seq<Conversation>, healthRecords: seq<HealthRecord>)

  /** No two users share a primary key. */
  ghost predicate UniqueUserIds(db: Database)
  {
    forall i, j :: 0 <= i < j < |db.users| ==> db.users[i].userId != db.users[j].userId
  }

  ghost predicate UserIdFree(db: Database, id: string)
  {
    forall i :: 0 <= i < |db.users| ==> db.users[i].userId != id
  }

  /** `UserCRUD.create_user`: one new row with the given fields, the schema's
      defaults for the rest; the language defaults to "zh" at `CreateUserDefault`. */
  function CreateUser(db: Database, newId: string, now: int, name: string, age: int, gender: string,
                      language: string): (r: (Database, User))
    ensures r.0.users == db.users + [r.1]
    ensures r.0.conversations == db.conversations && r.0.healthRecords == db.healthRecords
    ensures r.1.userId == newId && r.1.name == Some(name) && r.1.age == Some(age) && r.1.gender == Some(gender)
    ensures r.1.preferredLanguage == language && r.1.dialect == None && r.1.voiceGender == "female"
            && r.1.createdAt == now
    ensures UniqueUserIds(db) && UserIdFree(db, newId) ==> UniqueUserIds(r.0)
  {
    var user := User(newId, Some(name), Some(age), Some(gender), language, None, "female", now);
    (db.(users := db.users + [user]), user)
  }

  /** `create_user` called without a language. */
  function CreateUserDefault(db: Database, newId: string, now: int, name: string, age: int, gender: string): (r: (Database, User))
    ensures r.1 == User(newId, Some(name), Some(age), Some(gender), "zh", None, "female", now)
    ensures r.0 == db.(users := db.users + [r.1])
  {
    CreateUser(db, newId, now, name, age, gender, "zh")
  }

  /** `UserCRUD.get_user`: the user with that id, or None when there is none. */
  function GetUser(db: Database, userId: string): (r: Option<User>)
    ensures r.None? <==> UserIdFree(db, userId)
    ensures r.Some? ==> r.value in db.users && r.value.userId == userId
    decreases |db.users|
  {
    if |db.users| == 0 then None
    else if db.users[0].userId == userId then Some(db.users[0])
    else
      var rest := db.(users := db.users[1..]);
      assert forall i :: 1 <= i < |db.users| ==> db.users[i] == rest.users[i - 1];
      GetUser(rest, userId)
  }

  /** A user just created is found again by its id. */
  lemma CreateThenGetUser(db: Database, newId: string, now: int, name: string, age: int, gender: string, language: string)
    requires UserIdFree(db, newId)
    ensures var (db', user) := CreateUser(db, newId, now, name, age, gender, language);
            GetUser(db', newId) == Some(user)
  {
    var (db', user) := CreateUser(db, newId, now, name, age, gender, language);
    GetUserFindsUnique(db', user);
  }

  lemma {:induction false} GetUserFindsUnique(db: Database, user: User)
    requires user in db.users
    requires forall i :: 0 <= i < |db.users| && db.users[i] != user ==> db.users[i].userId != user.userId
    ensures GetUser(db, user.userId) == Some(user)
    decreases |db.users|
  {
    if db.users[0] != user {
      var rest := db.(users := db.users[1..]);
      assert db.users == [db.users[0]] + rest.users;
      assert forall i :: 0 <= i < |rest.users| ==> rest.users[i] == db.users[i + 1];
      GetUserFindsUnique(rest, user);
    }
  }

  /** `get_or_create_default_user`: the first user if the table has any, else a new
      default user ("测试用户", 70, "female", "zh"). */
  function GetOrCreateDefaultUser(db: Database, newId: string, now: int): (r: (Database, User))
    ensures |db.users| > 0 ==> r == (db, db.users[0])
    ensures |db.users| == 0 ==>
      && r.0 == db.(users := [r.1])
      && r.1 == User(newId, Some("测试用户"), Some(70), Some("female"), "zh", None, "female", now)
  {
    if |db.users| > 0 then (db, db.users[0])
    else CreateUser(db, newId, now, "测试用户", 70, "female", "zh")
  }

  /** Calling `get_or_create_default_user` again creates nothing more and returns the same user. */
  lemma GetOrCreateDefaultUserIdempotent(db: Database, newId: string, newId': string, now: int, now': int)
    ensures var (db1, u1) := GetOrCreateDefaultUser(db, newId, now);
            GetOrCreateDefaultUser(db1, newId', now') == (db1, u1) && |db1.users| >= 1
  {
  }

  /** `ConversationCRUD.save_conversation`: one new row with the given fields. */
  function SaveConversation(db: Database, newId: string, now: int, userId: string, language: string,
                            userMessage: string, botResponse: string, emotionScore: Option<real>): (r: (Database, Conversation))
    ensures r.0.conversations == db.conversations + [r.1]
    ensures r.0.users == db.users && r.0.healthRecords == db.healthRecords
    ensures r.1 == Conversation(newId, userId, language, userMessage, botResponse, emotionScore, now)
  {
    var c := Conversation(newId, userId, language, userMessage, botResponse, emotionScore, now);
    (db.(conversations := db.conversations + [c]), c)
  }

  /** `save_conversation` called without an emotion score. */
  function SaveConversationDefault(db: Database, newId: string, now: int, userId: string, language: string,
                                   userMessage: string, botResponse: string): (r: (Database, Conversation))
    ensures r.1 == Conversation(newId, userId, language, userMessage, botResponse, None, now)
    ensures r.0 == db.(conversations := db.conversations + [r.1])
  {
    SaveConversation(db, newId, now, userId, language, userMessage, botResponse, None)
  }

  function UserConversations(db: Database, userId: string): seq<Conversation>
  {
    Filter(db.conversations, (c: Conversation) => c.userId == userId)
  }

  /** `get_recent_conversations`: at most `limit` of the user's conversations, newest
      first, and none left out is newer than one returned. */
  function GetRecentConversations(db: Database, userId: string, limit: nat): (r: seq<Conversation>)
    ensures |r| == Min(|UserConversations(db, userId)|, limit)
    ensures forall i :: 0 <= i < |r| ==> r[i] in db.conversations && r[i].userId == userId
    ensures forall i, j :: 0 <= i < j < |r| ==> r[i].createdAt >= r[j].createdAt
    ensures multiset(r) <= multiset(UserConversations(db, userId))
    ensures forall x, y :: x in multiset(UserConversations(db, userId)) - multiset(r) && y in multiset(r)
                           ==> x.createdAt <= y.createdAt
  {
    var mine := UserConversations(db, userId);
    var r := Top(mine, limit, (c: Conversation) => c.createdAt as real);
    RecentRowsAreTheUsers(db, userId, r);
    r
  }

  lemma RecentRowsAreTheUsers(db: Database, userId: string, r: seq<Conversation>)
    requires multiset(r) <= multiset(UserConversations(db, userId))
    ensures forall i :: 0 <= i < |r| ==> r[i] in db.conversations && r[i].userId == userId
  {
    forall i | 0 <= i < |r| ensures r[i] in db.conversations && r[i].userId == userId {
      assert r[i] in multiset(UserConversations(db, userId));
    }
  }

  /** `get_recent_conversations` called without a limit. */
  function GetRecentConversationsDefault(db: Database, userId: string): (r: seq<Conversation>)
    ensures |r| == Min(|UserConversations(db, userId)|, 10)
    ensures forall i :: 0 <= i < |r| ==> r[i] in db.conversations && r[i].userId == userId
    ensures forall i, j :: 0 <= i < j < |r| ==> r[i].createdAt >= r[j].createdAt
    ensures multiset(r) <= multiset(UserConversations(db, userId))
    ensures forall x, y :: x in multiset(UserConversations(db, userId)) - multiset(r) && y in multiset(r)
                           ==> x.createdAt <= y.createdAt
  {
    GetRecentConversations(db, userId, 10)
  }

  /** A conversation saved later than all of the user's earlier ones is the first
      row `get_recent_conversations` returns. */
  lemma SaveThenRecentFirst(db: Database, newId: string, now: int, userId: string, language: string,
                            userMessage: string, botResponse: string, emotionScore: Option<real>, limit: nat)
    requires limit > 0
    requires forall c :: c in db.conversations && c.userId == userId ==> c.createdAt < now
    ensures var (db', c) := SaveConversation(db, newId, now, userId, language, userMessage, botResponse, emotionScore);
            var recent := GetRecentConversations(db', userId, limit);
            |recent| > 0 && recent[0] == c
  {
    var (db', c) := SaveConversation(db, newId, now, userId, language, userMessage, botResponse, emotionScore);
    var mine := UserConversations(db', userId);
    var recent := GetRecentConversations(db', userId, limit);
    assert c in db'.conversations;
    assert c in mine;
    assert |recent| > 0;
    assert recent[0].createdAt >= now by {
      if c in multiset(recent) {
        var k :| 0 <= k < |recent| && recent[k] == c;
        assert recent[0].createdAt >= recent[k].createdAt;
      } else {
        assert c in multiset(mine) - multiset(recent);
        assert recent[0] in multiset(recent);
      }
    }
    assert recent[0] in db'.conversations && recent[0].userId == userId;
  }

  /** `HealthRecordCRUD.create_record`: one new row carrying the optional source conversation. */
  function CreateRecord(db: Database, newId: string, now: int, userId: string, recordType: string, value: string,
                        conversationId: Option<string>): (r: (Database, HealthRecord))
    ensures r.0.healthRecords == db.healthRecords + [r.1]
    ensures r.0.users == db.users && r.0.conversations == db.conversations
    ensures r.1 == HealthRecord(newId, userId, recordType, value, conversationId, now)
  {
    var record := HealthRecord(newId, userId, recordType, value, conversationId, now);
    (db.(healthRecords := db.healthRecords + [record]), record)
  }

  /** The health records of one user, in insertion order. */
  function UserRecords(db: Database, userId: string): seq<HealthRecord>
  {
    Filter(db.healthRecords, (h: HealthRecord) => h.userId == userId)
  }

  /** A new record is appended to its user's records and to nobody else's. */
  lemma CreateRecordAppendsToUser(db: Database, newId: string, now: int, userId: string, recordType: string,
                                  value: string, conversationId: Option<string>, other: string)
    ensures var (db', record) := CreateRecord(db, newId, now, userId, recordType, value, conversationId);
            UserRecords(db', other) == UserRecords(db, other) + (if other == userId then [record] else [])
  {
    var (db', record) := CreateRecord(db, newId, now, userId, recordType, value, conversationId);
    FilterAppend(db.healthRecords, [record], (h: HealthRecord) => h.userId == other);
    assert [record][1..] == [];
  }
}

=== FILE: language_router.dfy ===
/** Language routing: from the statistical detector's output to one of the
    application's languages, and from an application language to the locale tag
    used by speech interfaces. The detector itself is an oracle parameter. */
module LanguageRouter {
  import opened Wrappers

  /** What one call of the language detector on a text can do. */
  datatype Detection =
    | Detected(code: string)          // the detector answered with a language code
    | LangDetectException             // the detector gave up (empty or featureless text)
    | OtherException(name: string)    // any other exception; it is not caught

  /** The application's own language codes. */
  const AppLanguages: set<string> := {"zh", "nl", "en"}

  /** The default of `detect_language`'s `default` parameter. */
  const DefaultLanguage: string := "zh"

  /** Detector codes that name an application language. */
  const LanguageMap: map<string, string> := map["zh-cn" := "zh", "nl" := "nl", "en" := "en"]

  /** The detector code that maps to an application language: the inverse of `LanguageMap`. */
  function DetectorCode(language: string): string
  {
    if language == "zh" then "zh-cn" else language
  }

  /** `detect_language`: a recognised detector code gives its application language,
      an unrecognised one or a `LangDetectException` gives `default`, and any other
      exception escapes unchanged. */
  function DetectLanguage(detect: string -> Detection, text: string, default: string): (r: Result<string, string>)
    ensures r.Err? <==> detect(text).OtherException?
    ensures r.Err? ==> r.error == detect(text).name
    ensures r.Ok? ==> r.value in AppLanguages || r.value == default
    ensures detect(text) == Detected("zh-cn") ==> r == Ok("zh")
    ensures detect(text) == Detected("nl") ==> r == Ok("nl")
    ensures detect(text) == Detected("en") ==> r == Ok("en")
    ensures detect(text).Detected? && detect(text).code !in {"zh-cn", "nl", "en"} ==> r == Ok(default)
    ensures detect(text).LangDetectException? ==> r == Ok(default)
  {
    match detect(text)
    case Detected(code) => Ok(if code in LanguageMap then LanguageMap[code] else default)
    case LangDetectException => Ok(default)
    case OtherException(name) => Err(name)
  }

  /** `detect_language` called without a `default`: whatever the detector answers
      short of a foreign exception, the result is an application language. */
  function DetectLanguageWithDefault(detect: string -> Detection, text: string): (r: Result<string, string>)
    ensures r.Ok? <==> !detect(text).OtherException?
    ensures r.Ok? ==> r.value in AppLanguages
    ensures detect(text).LangDetectException? ==> r == Ok("zh")
    ensures detect(text).Detected? && detect(text).code !in LanguageMap ==> r == Ok("zh")
  {
    DetectLanguage(detect, text, DefaultLanguage)
  }

  /** A language other than the fallback is only ever reported when the detector
      answered exactly that language's detector code. */
  lemma DetectedLanguageHasItsCode(detect: string -> Detection, text: string, default: string)
    ensures forall l :: l in AppLanguages && l != default && DetectLanguage(detect, text, default) == Ok(l)
                        ==> detect(text) == Detected(DetectorCode(l))
  {
  }

  /** `get_language_code`: the locale tag of an application language, "zh-CN" for anything else. */
  function LocaleTag(language: string): (r: string)
    ensures r in {"zh-CN", "nl-NL", "en-US"}
    ensures language == "zh" ==> r == "zh-CN"
    ensures language == "nl" ==> r == "nl-NL"
    ensures language == "en" ==> r == "en-US"
    ensures language !in AppLanguages ==> r == "zh-CN"
  {
    var mapping := map["zh" := "zh-CN", "nl" := "nl-NL", "en" := "en-US"];
    if language in mapping then mapping[language] else "zh-CN"
  }

  /** The application language a locale tag stands for. */
  function LanguageOfLocale(tag: string): string
  {
    if tag == "nl-NL" then "nl" else if tag == "en-US" then "en" else "zh"
  }

  /** Locale tags round-trip for the application's languages, so distinct languages
      get distinct tags; every other input is treated as Chinese. */
  lemma LocaleTagRoundTrip(language: string)
    ensures language in AppLanguages ==> LanguageOfLocale(LocaleTag(language)) == language
    ensures language !in AppLanguages ==> LanguageOfLocale(LocaleTag(language)) == DefaultLanguage
  {
  }
}

=== FILE: llm_manager.dfy ===
/** LLM dispatch: the many-to-one choice of chat backend by language, and the
    ordered message list one chat call sends. The backend call is an oracle. */
module LlmManager {
  import opened Wrappers
  import opened Seqs
  import opened ConversationMemory

  /** The two chat backends: DeepSeek's deepseek-chat and OpenAI's gpt-4o-mini. */
  datatype Backend = DeepSeekChat | Gpt4oMini

  /** LangChain's role-tagged messages. */
  datatype ChatMessage = SystemMessage(content: string) | HumanMessage(content: string) | AIMessage(content: string)

  datatype LlmError =
    | ConfigError(message: string)   // the ValueError `get_model` raises
    | UpstreamError(detail: string)  // whatever the backend call raises

  const MissingKeyPrefix: string := "OpenAI API密钥未配置，无法使用"
  const MissingKeySuffix: string := "语言。请在.env文件中添加OPENAI_API_KEY，或只使用中文对话。"

  /** The ValueError message for a language that needs the missing OpenAI key. */
  function MissingKeyMessage(language: string): (m: string)
    ensures |m| == |MissingKeyPrefix| + |language| + |MissingKeySuffix|
    ensures m[..|MissingKeyPrefix|] == MissingKeyPrefix
    ensures m[|MissingKeyPrefix|..|MissingKeyPrefix| + |language|] == language
    ensures m[|MissingKeyPrefix| + |language|..] == MissingKeySuffix
  {
    MissingKeyPrefix + language + MissingKeySuffix
  }

  /** `get_model`: "zh" always gets DeepSeek; every other language gets gpt-4o-mini,
      which exists only when an OpenAI key was configured, and otherwise raises a
      ValueError naming the language. */
  function GetModel(language: string, openaiKey: string): (r: Result<Backend, LlmError>)
    ensures language == "zh" ==> r == Ok(DeepSeekChat)
    ensures language != "zh" && openaiKey == "" ==> r == Err(ConfigError(MissingKeyMessage(language)))
    ensures language != "zh" && openaiKey != "" ==> r == Ok(Gpt4oMini)
  {
    if language == "zh" then Ok(DeepSeekChat)
    else if openaiKey == "" then Err(ConfigError(MissingKeyMessage(language)))
    else Ok(Gpt4oMini)
  }

  /** DeepSeek serves exactly Chinese; with a key, every other language shares one
      backend; without one, exactly Chinese is served at all. */
  lemma GetModelGrouping(language: string, other: string, openaiKey: string)
    ensures GetModel(language, openaiKey) == Ok(DeepSeekChat) <==> language == "zh"
    ensures openaiKey != "" && language != "zh" && other != "zh" ==> GetModel(language, openaiKey) == GetModel(other, openaiKey)
    ensures GetModel(language, openaiKey).Ok? <==> language == "zh" || openaiKey != ""
  {
  }

  /** History entries the message builder keeps: those whose role is "user" or "assistant". */
  function Recognised(history: seq<Msg>): seq<Msg>
  {
    Filter(history, (m: Msg) => m.role == "user" || m.role == "assistant")
  }

  /** History translated to chat messages: user to Human, assistant to AI, other roles dropped. */
  function Translate(history: seq<Msg>): (r: seq<ChatMessage>)
    ensures |r| == |Recognised(history)|
    ensures forall i :: 0 <= i < |r| ==> r[i].HumanMessage? || r[i].AIMessage?
    ensures Untranslate(r) == Recognised(history)
  {
    if |history| == 0 then []
    else
      var m := history[0];
      var rest := Translate(history[1..]);
      RecognisedStep(history);
      if m.role == "user" then
        UntranslateStep(HumanMessage(m.content), rest);
        assert Untranslated(HumanMessage(m.content)) == m;
        [HumanMessage(m.content)] + rest
      else if m.role == "assistant" then
        UntranslateStep(AIMessage(m.content), rest);
        assert Untranslated(AIMessage(m.content)) == m;
        [AIMessage(m.content)] + rest
      else rest
  }

  lemma RecognisedStep(history: seq<Msg>)
    requires |history| > 0
    ensures Recognised(history)
            == (if history[0].role == "user" || history[0].role == "assistant" then [history[0]] else [])
               + Recognised(history[1..])
  {
  }

  lemma UntranslateStep(c: ChatMessage, rest: seq<ChatMessage>)
    ensures Untranslate([c] + rest) == [Untranslated(c)] + Untranslate(rest)
  {
    assert ([c] + rest)[1..] == rest;
  }

  /** The stored form of one chat message. */
  function Untranslated(c: ChatMessage): Msg
  {
    match c
    case HumanMessage(x) => Msg("user", x)
    case AIMessage(x) => Msg("assistant", x)
    case SystemMessage(x) => Msg("system", x)
  }

  /** Chat messages back to stored history: the inverse of `Translate` on what it keeps. */
  function Untranslate(ms: seq<ChatMessage>): seq<Msg>
  {
    if |ms| == 0 then []
    else
      var m := Untranslated(ms[0]);
      [m] + Untranslate(ms[1..])
  }

  /** The message list of `chat`: one system message, the translated history (when
      there is any), then the current user message. */
  function BuildMessages(systemPrompt: string, userMessage: string, history: Option<seq<Msg>>): (r: seq<ChatMessage>)
    ensures |r| >= 2
    ensures r[0] == SystemMessage(systemPrompt)
    ensures r[|r| - 1] == HumanMessage(userMessage)
    ensures forall i :: 1 <= i < |r| ==> !r[i].SystemMessage?
    ensures history.None? || history == Some([]) ==> r == [SystemMessage(systemPrompt), HumanMessage(userMessage)]
    ensures history.Some? ==> |r| == 2 + |Recognised(history.value)|
    ensures history.Some? ==> Untranslate(r[1..|r| - 1]) == Recognised(history.value)
  {
    var middle := if history.None? || history == Some([]) then [] else Translate(history.value);
    assert history == Some([]) ==> Recognised(history.value) == [];
    var r := [SystemMessage(systemPrompt)] + middle + [HumanMessage(userMessage)];
    assert r[1..|r| - 1] == middle;
    r
  }

  /** `LLMManager.chat`: choose the backend first, then build the messages and call it
      once. A selection error is returned before the backend is reached; a backend
      failure is returned as it is. */
  function Chat(language: string, openaiKey: string, invoke: (Backend, seq<ChatMessage>) -> Result<string, string>,
                systemPrompt: string, userMessage: string, history: Option<seq<Msg>>): (r: Result<string, LlmError>)
    ensures GetModel(language, openaiKey).Err? ==> r == Err(GetModel(language, openaiKey).error)
    ensures GetModel(language, openaiKey).Ok? ==>
      var reply := invoke(GetModel(language, openaiKey).value, BuildMessages(systemPrompt, userMessage, history));
      && (reply.Ok? ==> r == Ok(reply.value))
      && (reply.Err? ==> r == Err(UpstreamError(reply.error)))
  {
    match GetModel(language, openaiKey)
    case Err(e) => Err(e)
    case Ok(model) =>
      match invoke(model, BuildMessages(systemPrompt, userMessage, history))
      case Ok(content) => Ok(content)
      case Err(e) => Err(UpstreamError(e))
  }

  /** A language without a configured backend fails the same way whatever the backends
      would have answered: no backend is called. */
  lemma ConfigErrorSkipsBackend(language: string, invoke: (Backend, seq<ChatMessage>) -> Result<string, string>,
                                invoke': (Backend, seq<ChatMessage>) -> Result<string, string>,
                                systemPrompt: string, userMessage: string, history: Option<seq<Msg>>)
    requires language != "zh"
    ensures Chat(language, "", invoke, systemPrompt, userMessage, history)
            == Chat(language, "", invoke', systemPrompt, userMessage, history)
            == Err(ConfigError(MissingKeyMessage(language)))
  {
  }
}

=== FILE: prompts.dfy ===
/** The per-language system prompts and Python's `str.format` over them. A template
    is a list of literal text and named replacement fields; formatting substitutes
    every field from keyword arguments and raises `KeyError` naming the first field
    that has no argument. Arguments no field names are ignored. */
module Prompts {
  import opened Wrappers
  import LanguageRouter

  datatype Segment = Lit(text: string) | Field(name: string)

  type Template = seq<Segment>

  /** The exception `str.format` raises for a field with no argument. */
  datatype FormatError = KeyError(key: string)

  /** Every field of `t` has an argument. */
  ghost predicate Supplied(t: Template, args: map<string, string>)
  {
    forall i :: 0 <= i < |t| && t[i].Field? ==> t[i].name in args
  }

  /** `str.format(**args)` on a template. */
  function Format(t: Template, args: map<string, string>): (r: Result<string, FormatError>)
    ensures r.Ok? <==> Supplied(t, args)
    ensures r.Err? ==> exists i :: 0 <= i < |t| && t[i] == Field(r.error.key) && r.error.key !in args
                                   && Supplied(t[..i], args)
  {
    if |t| == 0 then Ok("")
    else
      var head := match t[0] case Lit(s) => Ok(s) case Field(n) => if n in args then Ok(args[n]) else Err(KeyError(n));
      match head
      case Err(e) =>
        assert t[0] == Field(e.key) && Supplied(t[..0], args);
        Err(e)
      case Ok(s) =>
        match Format(t[1..], args)
        case Ok(rest) =>
          assert forall i :: 1 <= i < |t| ==> t[i] == t[1..][i - 1];
          Ok(s + rest)
        case Err(e) =>
          assert forall i :: 1 <= i < |t| ==> t[i] == t[1..][i - 1];
          assert exists i :: 0 <= i < |t| && t[i] == Field(e.key) && e.key !in args && Supplied(t[..i], args) by {
            var j :| 0 <= j < |t[1..]| && t[1..][j] == Field(e.key) && e.key !in args && Supplied(t[1..][..j], args);
            assert t[..j + 1] == [t[0]] + t[1..][..j];
          }
          Err(e)
  }

  /** What one segment formats to: its literal text, or its field's argument. */
  lemma FormatSegment(seg: Segment, args: map<string, string>)
    ensures seg.Lit? ==> Format([seg], args) == Ok(seg.text)
    ensures seg.Field? && seg.name in args ==> Format([seg], args) == Ok(args[seg.name])
    ensures seg.Field? && seg.name !in args ==> Format([seg], args) == Err(KeyError(seg.name))
  {
    assert [seg][1..] == [];
    assert Format([], args) == Ok("");
    match seg
    case Lit(x) => assert x + "" == x;
    case Field(n) => if n in args { assert args[n] + "" == args[n]; }
  }

  /** Formatting is a homomorphism from concatenation of templates to concatenation
      of text: the first part's error wins, then the second part's, and otherwise the
      two texts are joined. */
  lemma {:induction false} FormatAppend(a: Template, b: Template, args: map<string, string>)
    ensures Format(a + b, args)
            == if Format(a, args).Err? then Format(a, args)
               else if Format(b, args).Err? then Format(b, args)
               else Ok(Format(a, args).value + Format(b, args).value)
  {
    if |a| == 0 {
      assert a + b == b;
      if Format(b, args).Ok? {
        assert "" + Format(b, args).value == Format(b, args).value;
      }
    } else {
      assert (a + b)[0] == a[0] && (a + b)[1..] == a[1..] + b;
      FormatAppend(a[1..], b, args);
      FormatFirst(a, args);
      FormatFirst(a + b, args);
      if Format(a, args).Ok? && Format(b, args).Ok? {
        var x, y, z := Format([a[0]], args).value, Format(a[1..], args).value, Format(b, args).value;
        assert x + (y + z) == (x + y) + z;
      }
    }
  }

  /** A template formats as its first segment followed by the rest. */
  lemma FormatFirst(t: Template, args: map<string, string>)
    requires |t| > 0
    ensures Format(t, args)
            == if Format([t[0]], args).Err? then Format([t[0]], args)
               else if Format(t[1..], args).Err? then Format(t[1..], args)
               else Ok(Format([t[0]], args).value + Format(t[1..], args).value)
  {
    FormatSegment(t[0], args);
  }

  /** The names of a template's fields, in order. */
  function Fields(t: Template): (r: seq<string>)
    ensures forall n :: n in r <==> exists i :: 0 <= i < |t| && t[i] == Field(n)
  {
    if |t| == 0 then []
    else
      assert forall i :: 1 <= i < |t| ==> t[i] == t[1..][i - 1];
      (if t[0].Field? then [t[0].name] else []) + Fields(t[1..])
  }

  /** Formatting reads only the arguments the template's fields name: two argument
      maps that agree on those give the same outcome. */
  lemma {:induction false} FormatReadsOnlyFields(t: Template, a: map<string, string>, b: map<string, string>)
    requires forall n :: n in Fields(t) ==> (n in a <==> n in b) && (n in a ==> a[n] == b[n])
    ensures Format(t, a) == Format(t, b)
  {
    if |t| > 0 {
      assert forall n :: n in Fields(t[1..]) ==> n in Fields(t);
      FormatReadsOnlyFields(t[1..], a, b);
      if t[0].Field? {
        assert t[0].name in Fields(t);
      }
    }
  }

  const ZhRules: string :=
    "你是暖洋洋，一个专门陪伴老年人的智能助手。\n" +
    "\n" +
    "## 你的角色定位\n" +
    "- 身份：晚辈、朋友、倾听者\n" +
    "- 性格：温暖、耐心、善解人意\n" +
    "- 语气：亲切、口语化、不说教\n" +
    "\n" +
    "## 对话原则\n" +
    "1. 使用简单、通俗的语言，避免专业术语\n" +
    "2. 回复简短（2-3句话），避免长篇大论\n" +
    "3. 多提开放式问题，鼓励老人表达\n" +
    "4. 对老人的感受表示理解和认同\n" +
    "5. 适时给予鼓励和肯定\n" +
    "\n" +
    "## 禁止事项\n" +
    "- 不提供医疗诊断或治疗建议\n" +
    "- 不推荐具体药物\n" +
    "- 不对严重症状轻描淡写\n" +
    "\n"

  const NlRules: string :=
    "Je bent Nuanyangyang, een slimme assistent die speciaal is ontworpen om ouderen gezelschap te houden.\n" +
    "\n" +
    "## Jouw rol\n" +
    "- Identiteit: Jongere familielid, vriend, luisteraar\n" +
    "- Persoonlijkheid: Warm, geduldig, begripvol\n" +
    "- Toon: Vriendelijk, conversationeel, niet betuttelend\n" +
    "\n" +
    "## Gespreksregels\n" +
    "1. Gebruik eenvoudige, alledaagse taal, vermijd jargon\n" +
    "2. Houd antwoorden kort (2-3 zinnen), vermijd lange uitleg\n" +
    "3. Stel open vragen om de oudere aan te moedigen te praten\n" +
    "4. Toon begrip en bevestiging voor hun gevoelens\n" +
    "5. Geef op het juiste moment aanmoediging en complimenten\n" +
    "\n" +
    "## Verboden\n" +
    "- Geef geen medische diagnoses of behandeladvies\n" +
    "- Raad geen specifieke medicijnen aan\n" +
    "- Bagatelliseer geen ernstige symptomen\n" +
    "\n"

  const EnRules: string :=
    "You are Nuanyangyang, a smart assistant specially designed to keep elderly people company.\n" +
    "\n" +
    "## Your Role\n" +
    "- Identity: Younger family member, friend, listener\n" +
    "- Personality: Warm, patient, empathetic\n" +
    "- Tone: Friendly, conversational, non-patronizing\n" +
    "\n" +
    "## Conversation Principles\n" +
    "1. Use simple, everyday language, avoid jargon\n" +
    "2. Keep responses short (2-3 sentences), avoid lengthy explanations\n" +
    "3. Ask open-ended questions to encourage the elderly to express themselves\n" +
    "4. Show understanding and validation for their feelings\n" +
    "5. Provide encouragement and affirmation at appropriate times\n" +
    "\n" +
    "## Prohibitions\n" +
    "- Do not provide medical diagnoses or treatment advice\n" +
    "- Do not recommend specific medications\n" +
    "- Do not downplay serious symptoms\n" +
    "\n"

  /** A system prompt as written: the rules, a context section with a `{context}`
      field, and a user section with a `{user_info}` field. */
  function WithContext(rules: string, contextHeading: string, userHeading: string): Template
  {
    [Lit(rules + contextHeading + "\n"), Field("context"), Lit("\n\n" + userHeading + "\n"), Field("user_info"), Lit("\n")]
  }

  /** A system prompt with the context section removed. */
  function WithoutContext(rules: string, userHeading: string): Template
  {
    [Lit(rules + userHeading + "\n"), Field("user_info"), Lit("\n")]
  }

  /** A prompt language's rules text. */
  function Rules(language: string): string
  {
    if language == "zh" then ZhRules else if language == "nl" then NlRules else EnRules
  }

  /** A prompt language's heading over the retrieved context. */
  function ContextHeading(language: string): string
  {
    if language == "zh" then "## 相关上下文" else if language == "nl" then "## Relevante context" else "## Relevant context"
  }

  /** A prompt language's heading over the user information. */
  function UserHeading(language: string): string
  {
    if language == "zh" then "## 用户信息" else if language == "nl" then "## Gebruikersinformatie" else "## User information"
  }

  /** `SYSTEM_PROMPTS` as the code defines it. */
  const SystemPrompts: map<string, Template> :=
    map language | language in LanguageRouter.AppLanguages :: WithContext(Rules(language), ContextHeading(language), UserHeading(language))

  /** `SYSTEM_PROMPTS` as the orchestrator evidently expects it: the prompt takes only
      the user information, retrieved context having moved into the user message. */
  const IntendedPrompts: map<string, Template> :=
    map language | language in LanguageRouter.AppLanguages :: WithoutContext(Rules(language), UserHeading(language))

  lemma WithContextShape(rules: string, contextHeading: string, userHeading: string, args: map<string, string>)
    ensures var t := WithContext(rules, contextHeading, userHeading);
      && Fields(t) == ["context", "user_info"]
      && (Format(t, args).Ok? <==> "context" in args && "user_info" in args)
      && ("context" !in args ==> Format(t, args) == Err(KeyError("context")))
  {
    var t := WithContext(rules, contextHeading, userHeading);
    var t1, t2, t3, t4 := t[1..], t[2..], t[3..], t[4..];
    assert t1[1..] == t2 && t2[1..] == t3 && t3[1..] == t4 && t4[1..] == [];
    assert Fields(t4) == [] && Fields(t3) == ["user_info"] && Fields(t2) == ["user_info"];
    assert Fields(t1) == ["context", "user_info"];
  }

  lemma WithoutContextShape(rules: string, userHeading: string, args: map<string, string>)
    ensures var t := WithoutContext(rules, userHeading);
      && Fields(t) == ["user_info"]
      && (Format(t, args).Ok? <==> "user_info" in args)
  {
    var t := WithoutContext(rules, userHeading);
    var t1, t2 := t[1..], t[2..];
    assert t1[1..] == t2 && t2[1..] == [];
    assert Fields(t2) == [] && Fields(t1) == ["user_info"];
  }

  /** A prompt as written formats to its literal text with both arguments spliced in. */
  lemma WithContextText(rules: string, contextHeading: string, userHeading: string, args: map<string, string>)
    requires "context" in args && "user_info" in args
    ensures Format(WithContext(rules, contextHeading, userHeading), args)
            == Ok(rules + contextHeading + "\n" + args["context"] + "\n\n" + userHeading + "\n" + args["user_info"] + "\n")
    ensures var v, u := Format(WithContext(rules, contextHeading, userHeading), args).value, args["user_info"];
            |v| > |u| && v[|v| - |u| - 1..] == u + "\n"
  {
    var t := WithContext(rules, contextHeading, userHeading);
    var s0, s1, s2, s3, s4 := t[0], t[1], t[2], t[3], t[4];
    assert t == [s0] + ([s1] + ([s2] + ([s3] + [s4])));
    FormatSegment(s0, args);
    FormatSegment(s1, args);
    FormatSegment(s2, args);
    FormatSegment(s3, args);
    FormatSegment(s4, args);
    FormatAppend([s3], [s4], args);
    FormatAppend([s2], [s3] + [s4], args);
    FormatAppend([s1], [s2] + ([s3] + [s4]), args);
    FormatAppend([s0], [s1] + ([s2] + ([s3] + [s4])), args);
    var c, u := args["context"], args["user_info"];
    var l0, l2 := rules + contextHeading + "\n", "\n\n" + userHeading + "\n";
    assert l0 + (c + (l2 + (u + "\n")))
           == rules + contextHeading + "\n" + c + "\n\n" + userHeading + "\n" + u + "\n";
  }

  /** A corrected prompt formats to its literal text with the user information spliced in. */
  lemma WithoutContextText(rules: string, userHeading: string, args: map<string, string>)
    requires "user_info" in args
    ensures Format(WithoutContext(rules, userHeading), args) == Ok(rules + userHeading + "\n" + args["user_info"] + "\n")
    ensures var v, u := Format(WithoutContext(rules, userHeading), args).value, args["user_info"];
            |v| > |u| && v[|v| - |u| - 1..] == u + "\n"
  {
    var t := WithoutContext(rules, userHeading);
    var s0, s1, s2 := t[0], t[1], t[2];
    assert t == [s0] + ([s1] + [s2]);
    FormatSegment(s0, args);
    FormatSegment(s1, args);
    FormatSegment(s2, args);
    FormatAppend([s1], [s2], args);
    FormatAppend([s0], [s1] + [s2], args);
    var u := args["user_info"];
    assert (rules + userHeading + "\n") + (u + "\n") == rules + userHeading + "\n" + u + "\n";
  }

  /** The table has exactly the three languages; each prompt has one `{context}` field
      followed by one `{user_info}` field and no other field, so formatting it succeeds
      exactly when both arguments are given, and fails on `context` when that one is missing. */
  lemma SystemPromptsShape(language: string, args: map<string, string>)
    ensures SystemPrompts.Keys == {"zh", "nl", "en"}
    ensures language in SystemPrompts ==>
      var t := SystemPrompts[language];
      && Fields(t) == ["context", "user_info"]
      && (Format(t, args).Ok? <==> "context" in args && "user_info" in args)
      && ("context" !in args ==> Format(t, args) == Err(KeyError("context")))
  {
    assert SystemPrompts.Keys == LanguageRouter.AppLanguages;
    if language in SystemPrompts {
      WithContextShape(Rules(language), ContextHeading(language), UserHeading(language), args);
    }
  }

  /** `v` ends with the line `u`. */
  predicate EndsWithLine(v: string, u: string)
  {
    |v| > |u| && v[|v| - |u| - 1..] == u + "\n"
  }

  lemma WithContextEndsWithUserInfo(rules: string, contextHeading: string, userHeading: string, args: map<string, string>)
    requires "context" in args && "user_info" in args
    ensures Format(WithContext(rules, contextHeading, userHeading), args).Ok?
    ensures EndsWithLine(Format(WithContext(rules, contextHeading, userHeading), args).value, args["user_info"])
  {
    WithContextText(rules, contextHeading, userHeading, args);
  }

  /** Formatted with both arguments, every prompt as written ends with the user
      information on its own line. */
  lemma SystemPromptsEndWithUserInfo(language: string, args: map<string, string>)
    requires "context" in args && "user_info" in args
    ensures language in SystemPrompts ==>
      Format(SystemPrompts[language], args).Ok? && EndsWithLine(Format(SystemPrompts[language], args).value, args["user_info"])
  {
    if language in SystemPrompts {
      WithContextEndsWithUserInfo(Rules(language), ContextHeading(language), UserHeading(language), args);
    }
  }

  /** The intended prompts cover the same three languages with one `{user_info}` field
      each and no other, so formatting with `user_info` alone succeeds. */
  lemma IntendedPromptsShape(language: string, args: map<string, string>)
    ensures IntendedPrompts.Keys == SystemPrompts.Keys
    ensures language in IntendedPrompts ==>
      var t := IntendedPrompts[language];
      && Fields(t) == ["user_info"]
      && (Format(t, args).Ok? <==> "user_info" in args)
  {
    assert IntendedPrompts.Keys == LanguageRouter.AppLanguages;
    if language in IntendedPrompts {
      WithoutContextShape(Rules(language), UserHeading(language), args);
    }
  }

  lemma WithoutContextEndsWithUserInfo(rules: string, userHeading: string, args: map<string, string>)
    requires "user_info" in args
    ensures Format(WithoutContext(rules, userHeading), args).Ok?
    ensures EndsWithLine(Format(WithoutContext(rules, userHeading), args).value, args["user_info"])
  {
    WithoutContextText(rules, userHeading, args);
  }

  /** Formatted with the user information, every corrected prompt ends with it on its
      own line. */
  lemma IntendedPromptsEndWithUserInfo(language: string, args: map<string, string>)
    requires "user_info" in args
    ensures language in IntendedPrompts ==>
      Format(IntendedPrompts[language], args).Ok? && EndsWithLine(Format(IntendedPrompts[language], args).value, args["user_info"])
  {
    if language in IntendedPrompts {
      WithoutContextEndsWithUserInfo(Rules(language), UserHeading(language), args);
    }
  }

  /** Every prompt of `table` needs a `context` argument: formatted without one, it
      raises `KeyError('context')`. */
  ghost predicate NeedsContext(table: map<string, Template>)
  {
    forall language, args :: language in table && "context" !in args ==> Format(table[language], args) == Err(KeyError("context"))
  }

  /** Every prompt of `table` formats once a `user_info` argument is given. */
  ghost predicate NeedsOnlyUserInfo(table: map<string, Template>)
  {
    forall language, args :: language in table && "user_info" in args ==> Format(table[language], args).Ok?
  }

  /** The table as written covers the three languages and needs context everywhere. */
  lemma SystemPromptsNeedContext()
    ensures SystemPrompts.Keys == LanguageRouter.AppLanguages
    ensures NeedsContext(SystemPrompts)
  {
    assert SystemPrompts.Keys == LanguageRouter.AppLanguages;
    forall language, args | language in SystemPrompts && "context" !in args
      ensures Format(SystemPrompts[language], args) == Err(KeyError("context"))
    {
      WithContextShape(Rules(language), ContextHeading(language), UserHeading(language), args);
    }
  }

  /** The corrected table covers the three languages and needs only the user information. */
  lemma IntendedPromptsNeedOnlyUserInfo()
    ensures IntendedPrompts.Keys == LanguageRouter.AppLanguages
    ensures NeedsOnlyUserInfo(IntendedPrompts)
  {
    assert IntendedPrompts.Keys == LanguageRouter.AppLanguages;
    forall language, args | language in IntendedPrompts && "user_info" in args
      ensures Format(IntendedPrompts[language], args).Ok?
    {
      WithoutContextShape(Rules(language), UserHeading(language), args);
    }
  }
}

=== FILE: ranking.dfy ===
/** Ordering by a key, descending, as a search backend ranks hits by score and as
    SQL's `ORDER BY ... DESC` orders rows; and what keeping only the first `n` of
    such an ordering guarantees. */
module Ranking {
  import opened Seqs

  ghost predicate SortedDesc<T>(s: seq<T>, key: T -> real)
  {
    forall i, j :: 0 <= i < j < |s| ==> key(s[i]) >= key(s[j])
  }

  /** Inserts `x` ahead of the first element whose key it equals or exceeds, so
      that on a descending `s` earlier inputs stay ahead on ties. */
  function Insert<T>(x: T, s: seq<T>, key: T -> real): (r: seq<T>)
    ensures multiset(r) == multiset(s) + multiset{x}
  {
    if |s| == 0 then [x]
    else if key(s[0]) <= key(x) then [x] + s
    else
      assert s == [s[0]] + s[1..];
      [s[0]] + Insert(x, s[1..], key)
  }

  lemma {:induction false} InsertSorted<T>(x: T, s: seq<T>, key: T -> real)
    requires SortedDesc(s, key)
    ensures SortedDesc(Insert(x, s, key), key)
  {
    if |s| > 0 && key(s[0]) > key(x) {
      assert s == [s[0]] + s[1..];
      var rest := Insert(x, s[1..], key);
      InsertSorted(x, s[1..], key);
      forall i | 0 <= i < |rest|
        ensures key(s[0]) >= key(rest[i])
      {
        assert rest[i] in multiset(rest);
        if rest[i] != x {
          assert rest[i] in multiset(s[1..]);
          var j :| 0 <= j < |s[1..]| && s[1..][j] == rest[i];
          assert s[j + 1] == rest[i];
        }
      }
    }
  }

  /** The elements of `s`, highest key first. */
  function SortDesc<T>(s: seq<T>, key: T -> real): (r: seq<T>)
    ensures SortedDesc(r, key)
    ensures multiset(r) == multiset(s)
  {
    if |s| == 0 then []
    else
      assert s == [s[0]] + s[1..];
      var rest := SortDesc(s[1..], key);
      InsertSorted(s[0], rest, key);
      Insert(s[0], rest, key)
  }

  /** Keeping the first `n` of a descending sequence keeps a top-`n`: every element
      left out ranks no higher than any element kept. */
  lemma {:induction false} TakeIsTop<T>(s: seq<T>, n: nat, key: T -> real)
    requires SortedDesc(s, key)
    ensures forall x, y :: x in multiset(s) - multiset(Take(s, n)) && y in multiset(Take(s, n))
                           ==> key(x) <= key(y)
  {
    if |s| > n {
      assert s == s[..n] + s[n..];
      assert multiset(s) - multiset(s[..n]) == multiset(s[n..]);
      forall x, y | x in multiset(s) - multiset(Take(s, n)) && y in multiset(Take(s, n))
        ensures key(x) <= key(y)
      {
        assert x in s[n..];
        var j :| 0 <= j < |s[n..]| && s[n..][j] == x;
        assert y in s[..n];
        var i :| 0 <= i < n && s[..n][i] == y;
        assert s[i] == y && s[n + j] == x;
      }
    }
  }

  /** The `n` highest-keyed elements of `s`, highest first: at most `n`, all from `s`,
      in descending order, and nothing left out outranks anything kept. */
  function Top<T>(s: seq<T>, n: nat, key: T -> real): (r: seq<T>)
    ensures |r| == Min(|s|, n)
    ensures multiset(r) <= multiset(s)
    ensures SortedDesc(r, key)
    ensures forall x, y :: x in multiset(s) - multiset(r) && y in multiset(r) ==> key(x) <= key(y)
  {
    var ranked := SortDesc(s, key);
    TopProperties(ranked, n, key);
    Take(ranked, n)
  }

  lemma TopProperties<T>(ranked: seq<T>, n: nat, key: T -> real)
    requires SortedDesc(ranked, key)
    ensures multiset(Take(ranked, n)) <= multiset(ranked)
    ensures SortedDesc(Take(ranked, n), key)
    ensures forall x, y :: x in multiset(ranked) - multiset(Take(ranked, n)) && y in multiset(Take(ranked, n))
                           ==> key(x) <= key(y)
  {
    var r := Take(ranked, n);
    TakeIsTop(ranked, n, key);
    assert ranked == r + ranked[|r|..];
    assert multiset(ranked) == multiset(r) + multiset(ranked[|r|..]);
  }

  /** The facts of `Top` stated element by element: keys descend along the result, and
      an element of `s` missing from the result ranks no higher than any element kept. */
  lemma TopByElement<T>(s: seq<T>, r: seq<T>, key: T -> real)
    requires SortedDesc(r, key)
    requires forall x, y :: x in multiset(s) - multiset(r) && y in multiset(r) ==> key(x) <= key(y)
    ensures forall i, j :: 0 <= i < j < |r| ==> key(r[i]) >= key(r[j])
    ensures forall x, i :: x in s && x !in r && 0 <= i < |r| ==> key(x) <= key(r[i])
  {
    forall x, i | x in s && x !in r && 0 <= i < |r|
      ensures key(x) <= key(r[i])
    {
      assert x in multiset(s) - multiset(r);
      assert r[i] in multiset(r);
    }
  }
}

=== FILE: seqs.dfy ===
/** Sequence and string helpers that mirror Python list slicing, `str.join` and `str(int)`. */
module Seqs {

  function Min(a: int, b: int): int
  {
    if a <= b then a else b
  }

  /** `a` is a suffix of `b`. */
  ghost predicate IsSuffix<T>(a: seq<T>, b: seq<T>)
  {
    |a| <= |b| && b[|b| - |a|..] == a
  }

  /** The last `n` elements of `s`, or all of `s` when it has at most `n`:
      Python's `if len(s) > n: s = s[-n:]`. */
  function Last<T>(s: seq<T>, n: nat): (r: seq<T>)
    ensures |r| == Min(|s|, n)
    ensures IsSuffix(r, s)
  {
    if |s| <= n then s else s[|s| - n..]
  }

  /** The first `n` elements of `s`: Python's `s[:n]` and SQL's `LIMIT n`. */
  function Take<T>(s: seq<T>, n: nat): (r: seq<T>)
    ensures |r| == Min(|s|, n)
    ensures r <= s
  {
    if |s| <= n then s else s[..n]
  }

  /** Windowing commutes with appending: trimming to the last `n` before adding
      one element and trimming again is the same as trimming once at the end. */
  lemma LastOfLastAppend<T>(s: seq<T>, x: T, n: nat)
    requires n > 0
    ensures Last(Last(s, n) + [x], n) == Last(s + [x], n)
  {
    var t := Last(s, n) + [x];
    var u := s + [x];
    if |s| > n {
      assert |t| == n + 1;
      assert Last(t, n) == t[1..];
      forall i | 0 <= i < n
        ensures t[1..][i] == u[|u| - n..][i]
      {
        if i < n - 1 {
          assert t[1..][i] == s[|s| - n..][i + 1];
        }
      }
    }
  }

  /** The elements of `s` that satisfy `p`, in their original order
      (a Python list comprehension with an `if`, or an SQL `WHERE`). */
  function Filter<T(!new)>(s: seq<T>, p: T -> bool): (r: seq<T>)
    ensures |r| <= |s|
    ensures forall x :: x in r <==> x in s && p(x)
    ensures forall x :: multiset(r)[x] == if p(x) then multiset(s)[x] else 0
  {
    if |s| == 0 then []
    else
      assert s == [s[0]] + s[1..];
      if p(s[0]) then [s[0]] + Filter(s[1..], p) else Filter(s[1..], p)
  }

  /** Python's `sep.join(parts)`. */
  function Join(sep: string, parts: seq<string>): (r: string)
    ensures |parts| == 0 ==> r == ""
    ensures |parts| > 0 ==> parts[0] <= r
  {
    if |parts| == 0 then ""
    else if |parts| == 1 then parts[0]
    else parts[0] + sep + Join(sep, parts[1..])
  }

  /** Joining one part gives the part; joining two puts the separator between them. */
  lemma JoinSmall(sep: string, parts: seq<string>)
    ensures |parts| == 1 ==> Join(sep, parts) == parts[0]
    ensures |parts| == 2 ==> Join(sep, parts) == parts[0] + sep + parts[1]
  {
    if |parts| == 2 {
      assert parts[1..] == [parts[1]];
    }
  }

  /** Joining two non-empty runs of parts is joining each and putting the separator
      between them. */
  lemma {:induction false} JoinAppend(sep: string, a: seq<string>, b: seq<string>)
    requires a != [] && b != []
    ensures Join(sep, a + b) == Join(sep, a) + sep + Join(sep, b)
    decreases |a|
  {
    if |a| == 1 {
      assert (a + b)[1..] == b;
    } else {
      assert (a + b)[1..] == a[1..] + b;
      JoinAppend(sep, a[1..], b);
    }
  }

  function DigitChar(d: nat): char
    requires d < 10
  {
    "0123456789"[d]
  }

  /** Decimal digits of `n`, as Python's `str(n)` prints a non-negative int. */
  function ShowNat(n: nat): (r: string)
    ensures |r| > 0
    ensures forall i :: 0 <= i < |r| ==> '0' <= r[i] <= '9'
  {
    if n < 10 then [DigitChar(n)] else ShowNat(n / 10) + [DigitChar(n % 10)]
  }

  /** Python's `str(n)` for an int: a minus sign, then the digits of the magnitude. */
  function ShowInt(n: int): (r: string)
    ensures |r| > 0
    ensures n < 0 <==> r[0] == '-'
  {
    if n < 0 then "-" + ShowNat(-n) else ShowNat(n)
  }

  /** A sub-multiset as large as the whole is the whole. */
  lemma SubMultisetSameSize<T>(a: multiset<T>, b: multiset<T>)
    requires a <= b && |a| == |b|
    ensures a == b
  {
    assert b == a + (b - a);
    assert |b - a| == 0;
  }

  /** Matching the head of `a` with one occurrence in `b` leaves a sub-multiset. */
  lemma DropMatched<T>(a: seq<T>, b: seq<T>, j: nat)
    requires a != [] && multiset(a) <= multiset(b)
    requires j < |b| && b[j] == a[0]
    ensures b == b[..j] + [a[0]] + b[j + 1..]
    ensures multiset(a[1..]) <= multiset(b[..j] + b[j + 1..])
  {
    var rest := b[..j] + b[j + 1..];
    assert b == b[..j] + [a[0]] + b[j + 1..];
    assert multiset(b) == multiset(rest) + multiset{a[0]};
    assert a == [a[0]] + a[1..];
    assert multiset(a) == multiset(a[1..]) + multiset{a[0]};
    forall y ensures multiset(a[1..])[y] <= multiset(rest)[y] {
      assert multiset(a)[y] <= multiset(b)[y];
    }
  }

  /** An element of `s + [t]` other than `t` is an element of `s`. */
  lemma InFront<T>(s: seq<T>, t: T, x: T)
    requires x in s + [t] && x != t
    ensures x in s
  {
    var i :| 0 <= i < |s + [t]| && (s + [t])[i] == x;
    assert i < |s|;
    assert s[i] == x;
  }

  /** The middle part of a three-part concatenation sits right after the first part. */
  lemma MiddleSlice<T>(p: seq<T>, v: seq<T>, q: seq<T>)
    ensures (p + v + q)[|p|..|p| + |v|] == v
  {
  }

  /** Appending to nothing and keeping the last `n` leaves a short tail whole. */
  lemma LastOfFresh<T>(s: seq<T>, t: seq<T>, n: nat)
    requires s == [] && |t| <= n
    ensures Last(s + t, n) == t
  {
    assert s + t == t;
  }

  /** A window at least as long as `t` ends with `t` when the sequence does. */
  lemma LastKeepsTail<T>(s: seq<T>, t: seq<T>, n: nat)
    requires |t| <= n
    ensures |Last(s + t, n)| >= |t|
    ensures Last(s + t, n)[|Last(s + t, n)| - |t|..] == t
  {
    var w := Last(s + t, n);
    assert IsSuffix(w, s + t);
    assert (s + t)[|s + t| - |t|..] == t;
  }

  /** Appending two elements one at a time is appending the pair. */
  lemma AppendPair<T>(s: seq<T>, u: T, b: T)
    ensures s + [u] + [b] == s + [u, b]
  {
  }

  /** Filtering distributes over concatenation. */
  lemma {:induction false} FilterAppend<T(!new)>(a: seq<T>, b: seq<T>, p: T -> bool)
    ensures Filter(a + b, p) == Filter(a, p) + Filter(b, p)
  {
    if |a| == 0 {
      assert a + b == b;
    } else {
      assert (a + b)[0] == a[0] && (a + b)[1..] == a[1..] + b;
      FilterAppend(a[1..], b, p);
      FilterFirst(a + b, p);
      FilterFirst(a, p);
    }
  }

  lemma FilterFirst<T(!new)>(s: seq<T>, p: T -> bool)
    requires |s| > 0
    ensures Filter(s, p) == (if p(s[0]) then [s[0]] else []) + Filter(s[1..], p)
  {
  }
}

=== FILE: vector_store.dfy ===
/** Long-term semantic memory: the one-time choice of embedding backend, one Qdrant
    collection per language, indexing a finished turn, and per-user similarity
    search. Qdrant is a map from collection name to the collection's fixed vector
    dimension and its points in insertion order. Embedding vectors and similarity
    scores stay opaque: the embedder and the similarity measure are oracle
    parameters, and every backend call takes a flag saying whether it raised. */
module VectorStore {
  import opened Wrappers
  import opened Seqs
  import opened Ranking

  type Vector = seq<real>

  /** The two embedding providers: OpenAI's text-embedding-3-small and the local BAAI/bge-m3. */
  datatype Embedder = OpenAIEmbeddings | BgeM3Embeddings

  /** What startup decided: the embedder (if any), the collection dimension, and the
      `embedding_model` setting as startup leaves it. */
  datatype EmbeddingSetup = EmbeddingSetup(embeddings: Option<Embedder>, dim: nat, embeddingModel: string)

  /** The vector size each choice produces; 1024 when no embedder is set. */
  function DimensionOf(embeddings: Option<Embedder>): nat
  {
    match embeddings
    case Some(OpenAIEmbeddings) => 1536
    case _ => 1024
  }

  /** The embedding choice in `VectorStore.__init__`: "openai" with a key selects the
      hosted model; "openai" without a key rewrites the setting to "bge-m3" and so
      falls through to the local model; "bge-m3" selects the local model; any other
      setting leaves no embedder and the default dimension. */
  function ChooseEmbeddings(embeddingModel: string, openaiKey: string): (r: EmbeddingSetup)
    ensures r.dim == DimensionOf(r.embeddings)
    ensures embeddingModel == "openai" && openaiKey != "" ==> r == EmbeddingSetup(Some(OpenAIEmbeddings), 1536, "openai")
    ensures embeddingModel == "openai" && openaiKey == "" ==> r == EmbeddingSetup(Some(BgeM3Embeddings), 1024, "bge-m3")
    ensures embeddingModel == "bge-m3" ==> r == EmbeddingSetup(Some(BgeM3Embeddings), 1024, "bge-m3")
    ensures embeddingModel != "openai" && embeddingModel != "bge-m3" ==> r == EmbeddingSetup(None, 1024, embeddingModel)
  {
    var initial := EmbeddingSetup(None, 1024, embeddingModel);
    var afterOpenAI :=
      if embeddingModel != "openai" then initial
      else if openaiKey != "" then EmbeddingSetup(Some(OpenAIEmbeddings), 1536, embeddingModel)
      else initial.(embeddingModel := "bge-m3");
    if afterOpenAI.embeddingModel == "bge-m3" then EmbeddingSetup(Some(BgeM3Embeddings), 1024, "bge-m3")
    else afterOpenAI
  }

  /** Startup is stable: running the choice again on the setting it leaves behind
      makes the same choice. */
  lemma ChooseEmbeddingsStable(embeddingModel: string, openaiKey: string)
    ensures var r := ChooseEmbeddings(embeddingModel, openaiKey);
            ChooseEmbeddings(r.embeddingModel, openaiKey) == r
  {
  }

  /** The stored payload of one indexed turn. */
  datatype Payload = Payload(userId: string, conversationId: string, userMessage: string,
                             botResponse: string, text: string)

  datatype Point = Point(id: string, vector: Vector, payload: Payload)

  /** A collection: its fixed vector size and its points. */
  datatype Collection = Collection(dim: nat, points: seq<Point>)

  type Qdrant = map<string, Collection>

  /** Every stored vector has its collection's dimension. */
  ghost predicate WellFormed(q: Qdrant)
  {
    forall name, i :: name in q && 0 <= i < |q[name].points| ==> |q[name].points[i].vector| == q[name].dim
  }

  const CollectionPrefix: string := "conversations_"

  /** The collection that holds one language's turns. */
  function CollectionName(language: string): (name: string)
    ensures |name| == |CollectionPrefix| + |language|
    ensures name[..|CollectionPrefix|] == CollectionPrefix && name[|CollectionPrefix|..] == language
  {
    CollectionPrefix + language
  }

  /** Distinct languages use distinct collections. */
  lemma CollectionNameInjective(a: string, b: string)
    ensures CollectionName(a) == CollectionName(b) <==> a == b
  {
  }

  /** `_ensure_collection`: list the collections and create `name` with dimension `dim`
      only if it is absent. `ok` is false when listing or creating raised; the error is
      swallowed and Qdrant stays as it was. */
  function EnsureCollection(q: Qdrant, name: string, dim: nat, ok: bool): (r: Qdrant)
    ensures r.Keys == if ok then q.Keys + {name} else q.Keys
    ensures forall n :: n in q ==> r[n] == q[n]
    ensures ok && name !in q ==> r[name] == Collection(dim, [])
  {
    if !ok || name in q then q else q[name := Collection(dim, [])]
  }

  /** Check-then-create is idempotent: once `name` exists, ensuring it again, with any
      dimension and whether or not the backend answers, changes nothing, so there is
      still exactly one collection of that name with its original dimension. */
  lemma EnsureCollectionIdempotent(q: Qdrant, name: string, dim: nat, dim': nat, ok': bool)
    ensures EnsureCollection(EnsureCollection(q, name, dim, true), name, dim', ok')
            == EnsureCollection(q, name, dim, true)
  {
  }

  /** The startup loop over the supported languages; `reachable(name)` says whether
      the calls made for collection `name` succeeded. */
  function EnsureCollections(q: Qdrant, languages: seq<string>, dim: nat, reachable: string -> bool): (r: Qdrant)
    decreases |languages|
    ensures forall n :: n in q ==> n in r && r[n] == q[n]
    ensures forall i :: 0 <= i < |languages| && reachable(CollectionName(languages[i]))
                        ==> CollectionName(languages[i]) in r
    ensures forall n :: n in r && n !in q ==> r[n] == Collection(dim, [])
    ensures forall n :: n in r && n !in q ==> reachable(n) && exists i :: 0 <= i < |languages| && n == CollectionName(languages[i])
  {
    if |languages| == 0 then q
    else
      var name := CollectionName(languages[0]);
      var r := EnsureCollections(EnsureCollection(q, name, dim, reachable(name)), languages[1..], dim, reachable);
      assert forall i :: 1 <= i < |languages| ==> languages[1..][i - 1] == languages[i];
      r
  }

  /** The combined text a turn is embedded and stored under, with the labels the code uses. */
  function CombinedText(userMessage: string, botResponse: string): (t: string)
    ensures "用户: " + userMessage <= t
    ensures IsSuffix("\n助手: " + botResponse, t)
    ensures |t| == |"用户: "| + |userMessage| + |"\n助手: "| + |botResponse|
  {
    "用户: " + userMessage + "\n助手: " + botResponse
  }

  /** The combined text can be read back: knowing the length of the user message, the
      message and the reply are recovered from the stored text. */
  lemma CombinedTextReadBack(userMessage: string, botResponse: string, userMessage': string, botResponse': string)
    requires |userMessage| == |userMessage'|
    ensures CombinedText(userMessage, botResponse) == CombinedText(userMessage', botResponse')
            <==> userMessage == userMessage' && botResponse == botResponse'
  {
    var t, t' := CombinedText(userMessage, botResponse), CombinedText(userMessage', botResponse');
    if t == t' {
      var user, reply := "用户: ", "\n助手: ";
      MiddleSlice(user, userMessage, reply + botResponse);
      MiddleSlice(user, userMessage', reply + botResponse');
      assert t == user + userMessage + (reply + botResponse);
      assert t' == user + userMessage' + (reply + botResponse');
      assert botResponse == t[|t| - |botResponse|..];
      assert botResponse' == t'[|t'| - |botResponse'|..];
    }
  }

  /** The points other than the one with id `id`. */
  function WithoutId(points: seq<Point>, id: string): (r: seq<Point>)
    ensures forall p :: p in r <==> p in points && p.id != id
    ensures (forall i :: 0 <= i < |points| ==> points[i].id != id) ==> r == points
  {
    if |points| == 0 then []
    else if points[0].id == id then WithoutId(points[1..], id)
    else [points[0]] + WithoutId(points[1..], id)
  }

  /** Qdrant accepts an upsert of `vector` into `name`: the backend answered, the
      collection exists, and the vector has the collection's dimension. */
  predicate UpsertAccepted(q: Qdrant, name: string, vector: Vector, ok: bool)
  {
    ok && name in q && |vector| == q[name].dim
  }

  /** `add_conversation`: with no embedder, nothing happens. Otherwise the combined
      text is embedded and one point with a fresh id and the full payload is upserted
      into the language's collection. A failed embedding or upsert is swallowed. */
  function AddConversation(q: Qdrant, embeddings: Option<Embedder>, embed: (Embedder, string) -> Option<Vector>,
                           upsertOk: bool, pointId: string, userId: string, language: string,
                           userMessage: string, botResponse: string, conversationId: string): (r: Qdrant)
    ensures embeddings.None? ==> r == q
    ensures r.Keys == q.Keys
    ensures forall n :: n in q && n != CollectionName(language) ==> r[n] == q[n]
    ensures WellFormed(q) ==> WellFormed(r)
    ensures r != q ==>
      var name := CollectionName(language);
      && embeddings.Some? && name in q
      && r[name].dim == q[name].dim
      && |r[name].points| > 0
      && r[name].points[..|r[name].points| - 1] == WithoutId(q[name].points, pointId)
      && var p := r[name].points[|r[name].points| - 1];
         && p.id == pointId
         && p.payload == Payload(userId, conversationId, userMessage, botResponse, CombinedText(userMessage, botResponse))
         && Some(p.vector) == embed(embeddings.value, CombinedText(userMessage, botResponse))
  {
    match embeddings
    case None => q
    case Some(embedder) =>
      var text := CombinedText(userMessage, botResponse);
      var name := CollectionName(language);
      match embed(embedder, text)
      case None => q
      case Some(vector) =>
        if !UpsertAccepted(q, name, vector, upsertOk) then q
        else
          var point := Point(pointId, vector, Payload(userId, conversationId, userMessage, botResponse, text));
          var c := q[name];
          var points := WithoutId(c.points, pointId) + [point];
          assert forall i :: 0 <= i < |points| - 1 ==> points[i] in c.points;
          q[name := Collection(c.dim, points)]
  }

  /** With a fresh point id, a successful `add_conversation` appends exactly one point:
      the collection grows by one and keeps every earlier point in order. */
  lemma AddConversationAppendsOne(q: Qdrant, embedder: Embedder, embed: (Embedder, string) -> Option<Vector>,
                                  pointId: string, userId: string, language: string,
                                  userMessage: string, botResponse: string, conversationId: string)
    requires CollectionName(language) in q
    requires forall p :: p in q[CollectionName(language)].points ==> p.id != pointId
    requires embed(embedder, CombinedText(userMessage, botResponse)).Some?
    requires |embed(embedder, CombinedText(userMessage, botResponse)).value| == q[CollectionName(language)].dim
    ensures var r := AddConversation(q, Some(embedder), embed, true, pointId, userId, language,
                                     userMessage, botResponse, conversationId);
            var name := CollectionName(language);
            && |r[name].points| == |q[name].points| + 1
            && r[name].points[..|q[name].points|] == q[name].points
            && r[name].points[|q[name].points|].payload.text == CombinedText(userMessage, botResponse)
  {
    var name := CollectionName(language);
    assert forall i :: 0 <= i < |q[name].points| ==> q[name].points[i].id != pointId by {
      forall i | 0 <= i < |q[name].points| ensures q[name].points[i].id != pointId {
        assert q[name].points[i] in q[name].points;
      }
    }
  }

  /** One search result: the stored combined text and the backend's score. */
  datatype Hit = Hit(text: string, score: real)

  /** The embedding of `text`, if there is an embedder and embedding succeeded. */
  function Embed(embeddings: Option<Embedder>, embed: (Embedder, string) -> Option<Vector>, text: string): Option<Vector>
  {
    match embeddings
    case None => None
    case Some(e) => embed(e, text)
  }

  /** The collection's points whose payload names `userId`: the search's filter. */
  function UserPoints(c: Collection, userId: string): seq<Point>
  {
    Filter(c.points, (p: Point) => p.payload.userId == userId)
  }

  /** Qdrant's answer to a filtered search: the user's points, most similar first, at
      most `limit` of them, and no point left out scores above a point returned. */
  function TopMatches(c: Collection, userId: string, query: Vector, similarity: (Vector, Vector) -> real,
                      limit: nat): (r: seq<Point>)
    ensures |r| == Min(|UserPoints(c, userId)|, limit)
    ensures forall i :: 0 <= i < |r| ==> r[i] in c.points && r[i].payload.userId == userId
    ensures multiset(r) <= multiset(UserPoints(c, userId))
    ensures SortedDesc(r, (p: Point) => similarity(query, p.vector))
    ensures forall x, y :: x in multiset(UserPoints(c, userId)) - multiset(r) && y in multiset(r)
                           ==> similarity(query, x.vector) <= similarity(query, y.vector)
  {
    var users := UserPoints(c, userId);
    var r := Top(users, limit, (p: Point) => similarity(query, p.vector));
    assert forall i :: 0 <= i < |r| ==> r[i] in c.points && r[i].payload.userId == userId by {
      forall i | 0 <= i < |r| ensures r[i] in c.points && r[i].payload.userId == userId {
        assert r[i] in multiset(r);
        InUserPoints(c, userId, r[i]);
      }
    }
    r
  }

  /** A point counted among the user's points is a point of the collection's, owned by the user. */
  lemma InUserPoints(c: Collection, userId: string, x: Point)
    requires x in multiset(UserPoints(c, userId))
    ensures x in c.points && x.payload.userId == userId
  {
  }

  /** The ranking of `TopMatches` element by element: similarities descend along the
      result, and a point of the user's that was left out scores no higher than any
      point kept. */
  lemma TopMatchesRanked(c: Collection, userId: string, query: Vector, similarity: (Vector, Vector) -> real, limit: nat)
    ensures var r := TopMatches(c, userId, query, similarity, limit);
            forall i, j :: 0 <= i < j < |r| ==> similarity(query, r[i].vector) >= similarity(query, r[j].vector)
    ensures var r := TopMatches(c, userId, query, similarity, limit);
            forall x, i :: x in c.points && x.payload.userId == userId && x !in r && 0 <= i < |r|
                           ==> similarity(query, x.vector) <= similarity(query, r[i].vector)
  {
    var r := TopMatches(c, userId, query, similarity, limit);
    var key := (p: Point) => similarity(query, p.vector);
    TopByElement(UserPoints(c, userId), r, key);
  }

  function ToHits(points: seq<Point>, query: Vector, similarity: (Vector, Vector) -> real): (r: seq<Hit>)
    ensures |r| == |points|
    ensures forall i :: 0 <= i < |r| ==> r[i] == Hit(points[i].payload.text, similarity(query, points[i].vector))
  {
    if |points| == 0 then []
    else [Hit(points[0].payload.text, similarity(query, points[0].vector))] + ToHits(points[1..], query, similarity)
  }

  /** Scoring distributes over concatenation. */
  lemma ToHitsAppend(s: seq<Point>, t: seq<Point>, query: Vector, similarity: (Vector, Vector) -> real)
    ensures ToHits(s + t, query, similarity) == ToHits(s, query, similarity) + ToHits(t, query, similarity)
  {
    var l, r := ToHits(s + t, query, similarity), ToHits(s, query, similarity) + ToHits(t, query, similarity);
    assert |l| == |r|;
    forall i | 0 <= i < |l| ensures l[i] == r[i] {
      if i >= |s| {
        assert (s + t)[i] == t[i - |s|];
      }
    }
  }

  /** Scoring a sub-multiset of points gives a sub-multiset of hits: a point picked once
      yields its hit once. */
  lemma {:induction false} ToHitsSubMultiset(a: seq<Point>, b: seq<Point>, query: Vector,
                                             similarity: (Vector, Vector) -> real)
    requires multiset(a) <= multiset(b)
    ensures multiset(ToHits(a, query, similarity)) <= multiset(ToHits(b, query, similarity))
    decreases |a|
  {
    if a != [] {
      var x := a[0];
      assert x in multiset(b) by { assert x in multiset(a); }
      var j :| 0 <= j < |b| && b[j] == x;
      var front, back := b[..j], b[j + 1..];
      DropMatched(a, b, j);
      ToHitsSubMultiset(a[1..], front + back, query, similarity);
      ToHitsAround(front, x, back, query, similarity);
      var h := Hit(x.payload.text, similarity(query, x.vector));
      assert ToHits(a, query, similarity) == [h] + ToHits(a[1..], query, similarity);
      assert multiset(ToHits(b, query, similarity)) == multiset(ToHits(front + back, query, similarity)) + multiset{h};
    }
  }

  /** Scoring `front + [p] + back` yields the hit of `p` on top of the hits of the rest. */
  lemma ToHitsAround(front: seq<Point>, p: Point, back: seq<Point>, query: Vector,
                     similarity: (Vector, Vector) -> real)
    ensures multiset(ToHits(front + [p] + back, query, similarity))
            == multiset(ToHits(front + back, query, similarity))
               + multiset{Hit(p.payload.text, similarity(query, p.vector))}
  {
    var h := Hit(p.payload.text, similarity(query, p.vector));
    var f, k := ToHits(front, query, similarity), ToHits(back, query, similarity);
    ToHitsSingle(p, query, similarity);
    ToHitsAppend(front + [p], back, query, similarity);
    ToHitsAppend(front, [p], query, similarity);
    ToHitsAppend(front, back, query, similarity);
    assert multiset(f + [h] + k) == multiset(f + k) + multiset{h};
  }

  /** One point scores as one hit. */
  lemma ToHitsSingle(p: Point, query: Vector, similarity: (Vector, Vector) -> real)
    ensures ToHits([p], query, similarity) == [Hit(p.payload.text, similarity(query, p.vector))]
  {
  }

  /** What Qdrant's filtered search answers once the query is embedded: the caller's
      points ranked by similarity, at most `limit` of them, as text and score. Scores
      descend, every hit is one of the caller's points, no point is reported more
      often than it is stored, and a point of the caller's that scores above the last
      hit is among the hits. */
  function RankedSearch(c: Collection, userId: string, v: Vector, similarity: (Vector, Vector) -> real,
                        limit: nat): (r: seq<Hit>)
    ensures |r| == Min(|UserPoints(c, userId)|, limit)
    ensures forall i :: 0 <= i < |r| ==> exists p :: p in c.points && p.payload.userId == userId
                                               && r[i] == Hit(p.payload.text, similarity(v, p.vector))
    ensures forall i, j :: 0 <= i < j < |r| ==> r[i].score >= r[j].score
    ensures r != [] ==>
      forall p :: p in c.points && p.payload.userId == userId && similarity(v, p.vector) > r[|r| - 1].score
                  ==> Hit(p.payload.text, similarity(v, p.vector)) in r
    ensures multiset(r) <= multiset(ToHits(UserPoints(c, userId), v, similarity))
  {
    var top := TopMatches(c, userId, v, similarity, limit);
    ToHitsSubMultiset(top, UserPoints(c, userId), v, similarity);
    HitsFromUserPoints(c, userId, top, v, similarity);
    TopMatchesRanked(c, userId, v, similarity, limit);
    RankedHits(c, userId, top, v, similarity);
    ToHits(top, v, similarity)
  }

  /** Hits of the user's points come from the user's points. */
  lemma HitsFromUserPoints(c: Collection, userId: string, top: seq<Point>, v: Vector, similarity: (Vector, Vector) -> real)
    requires forall i :: 0 <= i < |top| ==> top[i] in c.points && top[i].payload.userId == userId
    ensures var r := ToHits(top, v, similarity);
            forall i :: 0 <= i < |r| ==> exists p :: p in c.points && p.payload.userId == userId
                                             && r[i] == Hit(p.payload.text, similarity(v, p.vector))
  {
    var r := ToHits(top, v, similarity);
    forall i | 0 <= i < |r|
      ensures exists p :: p in c.points && p.payload.userId == userId && r[i] == Hit(p.payload.text, similarity(v, p.vector))
    {
      assert r[i] == Hit(top[i].payload.text, similarity(v, top[i].vector));
    }
  }

  /** `search_similar_conversations`: [] without an embedder, when embedding or the
      backend search raises, when the collection is missing or the query vector has the
      wrong size; otherwise the ranked search among the caller's own points. */
  function Search(q: Qdrant, embeddings: Option<Embedder>, embed: (Embedder, string) -> Option<Vector>,
                  similarity: (Vector, Vector) -> real, searchOk: bool,
                  userId: string, language: string, query: string, limit: nat): (r: seq<Hit>)
    ensures |r| <= limit
    ensures embeddings.None? || !searchOk ==> r == []
    ensures r != [] ==> CollectionName(language) in q && Embed(embeddings, embed, query).Some?
    ensures CollectionName(language) in q && searchOk && Embed(embeddings, embed, query).Some?
            && |Embed(embeddings, embed, query).value| == q[CollectionName(language)].dim ==>
      r == RankedSearch(q[CollectionName(language)], userId, Embed(embeddings, embed, query).value, similarity, limit)
    ensures r != [] ==>
      r == RankedSearch(q[CollectionName(language)], userId, Embed(embeddings, embed, query).value, similarity, limit)
  {
    var name := CollectionName(language);
    match Embed(embeddings, embed, query)
    case None => []
    case Some(v) =>
      if !searchOk || name !in q || |v| != q[name].dim then []
      else RankedSearch(q[name], userId, v, similarity, limit)
  }

  /** Hits of a ranked top list: scores descend, and a point of the user's that
      scores above the last hit is among the hits. */
  lemma RankedHits(c: Collection, userId: string, top: seq<Point>, v: Vector, similarity: (Vector, Vector) -> real)
    requires forall i, j :: 0 <= i < j < |top| ==> similarity(v, top[i].vector) >= similarity(v, top[j].vector)
    requires forall x, i :: x in c.points && x.payload.userId == userId && x !in top && 0 <= i < |top|
                            ==> similarity(v, x.vector) <= similarity(v, top[i].vector)
    ensures var r := ToHits(top, v, similarity);
            forall i, j :: 0 <= i < j < |r| ==> r[i].score >= r[j].score
    ensures var r := ToHits(top, v, similarity);
            r != [] ==>
            forall p :: p in c.points && p.payload.userId == userId && similarity(v, p.vector) > r[|r| - 1].score
                        ==> Hit(p.payload.text, similarity(v, p.vector)) in r
  {
    var r := ToHits(top, v, similarity);
    if r != [] {
      forall p | p in c.points && p.payload.userId == userId && similarity(v, p.vector) > r[|r| - 1].score
        ensures Hit(p.payload.text, similarity(v, p.vector)) in r
      {
        assert r[|r| - 1].score == similarity(v, top[|top| - 1].vector);
        assert p in top;
        var k :| 0 <= k < |top| && top[k] == p;
        assert r[k] == Hit(p.payload.text, similarity(v, p.vector));
      }
    }
  }

  /** The limit `search_similar_conversations` uses when its caller gives none. */
  const DefaultSearchLimit: nat := 3

  /** `search_similar_conversations` with its default limit: at most three hits, and
      three whenever the caller has that many points and the search goes through. */
  function SearchDefault(q: Qdrant, embeddings: Option<Embedder>, embed: (Embedder, string) -> Option<Vector>,
                         similarity: (Vector, Vector) -> real, searchOk: bool,
                         userId: string, language: string, query: string): (r: seq<Hit>)
    ensures |r| <= 3
    ensures (&& CollectionName(language) in q && searchOk && Embed(embeddings, embed, query).Some?
             && |Embed(embeddings, embed, query).value| == q[CollectionName(language)].dim
             && |UserPoints(q[CollectionName(language)], userId)| >= 3) ==> |r| == 3
  {
    Search(q, embeddings, embed, similarity, searchOk, userId, language, query, DefaultSearchLimit)
  }

  /** Per-user isolation of retrieval: when a collection holds nothing of a user's,
      a search for that user finds nothing, whatever other users stored. */
  lemma SearchIsolatesUsers(q: Qdrant, embeddings: Option<Embedder>, embed: (Embedder, string) -> Option<Vector>,
                            similarity: (Vector, Vector) -> real, searchOk: bool,
                            userId: string, language: string, query: string, limit: nat)
    requires CollectionName(language) in q ==>
               forall p :: p in q[CollectionName(language)].points ==> p.payload.userId != userId
    ensures Search(q, embeddings, embed, similarity, searchOk, userId, language, query, limit) == []
  {
  }

  /** A search whose limit covers all of a user's points returns every one of them. */
  lemma SearchReturnsAllUserPoints(q: Qdrant, embeddings: Option<Embedder>, embed: (Embedder, string) -> Option<Vector>,
                                   similarity: (Vector, Vector) -> real, userId: string, language: string,
                                   query: string, limit: nat, p: Point)
    requires CollectionName(language) in q
    requires Embed(embeddings, embed, query).Some?
    requires |Embed(embeddings, embed, query).value| == q[CollectionName(language)].dim
    requires limit >= |UserPoints(q[CollectionName(language)], userId)|
    requires p in q[CollectionName(language)].points && p.payload.userId == userId
    ensures exists h :: h in Search(q, embeddings, embed, similarity, true, userId, language, query, limit)
                        && h.text == p.payload.text
  {
    var c := q[CollectionName(language)];
    var v := Embed(embeddings, embed, query).value;
    var top := TopMatches(c, userId, v, similarity, limit);
    TopMatchesKeepsAll(c, userId, v, similarity, limit, p);
    ToHitsCarriesText(top, v, similarity, p);
    assert ToHits(top, v, similarity) == RankedSearch(c, userId, v, similarity, limit);
  }

  /** A limit covering all of a user's points leaves none of them out of the top matches. */
  lemma TopMatchesKeepsAll(c: Collection, userId: string, v: Vector, similarity: (Vector, Vector) -> real,
                           limit: nat, p: Point)
    requires limit >= |UserPoints(c, userId)|
    requires p in c.points && p.payload.userId == userId
    ensures p in TopMatches(c, userId, v, similarity, limit)
  {
    var users := UserPoints(c, userId);
    var top := TopMatches(c, userId, v, similarity, limit);
    SubMultisetSameSize(multiset(top), multiset(users));
    assert p in users;
    assert p in multiset(top);
  }

  lemma ToHitsCarriesText(points: seq<Point>, v: Vector, similarity: (Vector, Vector) -> real, p: Point)
    requires p in points
    ensures exists h :: h in ToHits(points, v, similarity) && h.text == p.payload.text
  {
    var i :| 0 <= i < |points| && points[i] == p;
    assert ToHits(points, v, similarity)[i].text == p.payload.text;
  }

  /** Index-then-search round trip: after a turn is indexed, a search by the same user
      in the same language whose limit exceeds the collection's earlier size finds the
      turn's combined text. */
  lemma IndexThenSearchFinds(q: Qdrant, embedder: Embedder, embed: (Embedder, string) -> Option<Vector>,
                             similarity: (Vector, Vector) -> real, pointId: string, userId: string,
                             language: string, userMessage: string, botResponse: string,
                             conversationId: string, query: string, limit: nat)
    requires CollectionName(language) in q
    requires embed(embedder, CombinedText(userMessage, botResponse)).Some?
    requires |embed(embedder, CombinedText(userMessage, botResponse)).value| == q[CollectionName(language)].dim
    requires embed(embedder, query).Some? && |embed(embedder, query).value| == q[CollectionName(language)].dim
    requires limit > |q[CollectionName(language)].points|
    ensures var q' := AddConversation(q, Some(embedder), embed, true, pointId, userId, language,
                                      userMessage, botResponse, conversationId);
            exists h :: h in Search(q', Some(embedder), embed, similarity, true, userId, language, query, limit)
                        && h.text == CombinedText(userMessage, botResponse)
  {
    var name := CollectionName(language);
    var q' := AddConversation(q, Some(embedder), embed, true, pointId, userId, language,
                              userMessage, botResponse, conversationId);
    var c' := q'[name];
    var p := c'.points[|c'.points| - 1];
    assert p in c'.points;
    WithoutIdShrinks(q[name].points, pointId);
    assert |UserPoints(c', userId)| <= |c'.points| <= limit;
    SearchReturnsAllUserPoints(q', Some(embedder), embed, similarity, userId, language, query, limit, p);
  }

  /** Index-then-search round trip for a search of any positive limit: when the new
      turn scores strictly above every point the user had before, a search by the same
      user in the same language finds the turn's combined text. */
  lemma IndexThenSearchFindsTop(q: Qdrant, embedder: Embedder, embed: (Embedder, string) -> Option<Vector>,
                                similarity: (Vector, Vector) -> real, pointId: string, userId: string,
                                language: string, userMessage: string, botResponse: string,
                                conversationId: string, query: string, limit: nat)
    requires CollectionName(language) in q
    requires embed(embedder, CombinedText(userMessage, botResponse)).Some?
    requires |embed(embedder, CombinedText(userMessage, botResponse)).value| == q[CollectionName(language)].dim
    requires embed(embedder, query).Some? && |embed(embedder, query).value| == q[CollectionName(language)].dim
    requires limit >= 1
    requires forall p :: p in q[CollectionName(language)].points && p.payload.userId == userId ==>
               similarity(embed(embedder, query).value, p.vector)
               < similarity(embed(embedder, query).value, embed(embedder, CombinedText(userMessage, botResponse)).value)
    ensures var q' := AddConversation(q, Some(embedder), embed, true, pointId, userId, language,
                                      userMessage, botResponse, conversationId);
            exists h :: h in Search(q', Some(embedder), embed, similarity, true, userId, language, query, limit)
                        && h.text == CombinedText(userMessage, botResponse)
  {
    var name := CollectionName(language);
    var v := embed(embedder, query).value;
    var q' := AddConversation(q, Some(embedder), embed, true, pointId, userId, language,
                              userMessage, botResponse, conversationId);
    var points := q'[name].points;
    var older := points[..|points| - 1];
    assert points == older + [points[|points| - 1]];
    assert forall p :: p in older ==> p in q[name].points;
    TopScorerFound(q'[name], userId, v, similarity, limit, older, points[|points| - 1]);
    assert name in q' && q'[name].dim == q[name].dim;
    assert Embed(Some(embedder), embed, query) == Some(v);
    assert RankedSearch(q'[name], userId, v, similarity, limit)
           == Search(q', Some(embedder), embed, similarity, true, userId, language, query, limit);
  }

  /** A point of the user's that scores strictly above every other point of the user's
      is among the hits of any search with a positive limit. */
  lemma TopScorerFound(c: Collection, userId: string, v: Vector, similarity: (Vector, Vector) -> real,
                       limit: nat, older: seq<Point>, added: Point)
    requires c.points == older + [added] && added.payload.userId == userId && limit >= 1
    requires forall p :: p in older && p.payload.userId == userId ==> similarity(v, p.vector) < similarity(v, added.vector)
    ensures Hit(added.payload.text, similarity(v, added.vector)) in RankedSearch(c, userId, v, similarity, limit)
  {
    assert added in c.points;
    assert added in UserPoints(c, userId);
    var r := RankedSearch(c, userId, v, similarity, limit);
    var h := Hit(added.payload.text, similarity(v, added.vector));
    assert r != [];
    if similarity(v, added.vector) <= r[|r| - 1].score {
      var p :| p in c.points && p.payload.userId == userId && r[|r| - 1] == Hit(p.payload.text, similarity(v, p.vector));
      if p != added {
        InFront(older, added, p);
        assert false;
      }
      assert r[|r| - 1] == h;
    }
  }

  lemma WithoutIdShrinks(points: seq<Point>, id: string)
    ensures |WithoutId(points, id)| <= |points|
  {
  }
}

=== FILE: wrappers.dfy ===
/** Failure-carrying values shared by every module of the model. */
module Wrappers {

  /** A value that may be missing: Python's `Optional[T]` / `None`. */
  datatype Option<+T> = None | Some(value: T)

  /** The outcome of a call that may raise: `Err` carries the exception that escapes. */
  datatype Result<+T, +E> = Ok(value: T) | Err(error: E)
}
